=== FILE: README.md ===
# WEASEL 2.0 and MUSE 2.0 ensemble bookkeeping in Dafny

This project models the bookkeeping of two dictionary-based time-series classifiers:

- `WEASEL_V2`, which is univariate;
- `MUSE_V2`, which is multivariate.

Both classifiers train an ensemble of SFA word extractors (`SFADilation`). Each member draws one random configuration. The members' word blocks are merged column-wise into one feature matrix. A ridge classifier is trained on that matrix, and its decision scores are mapped to class labels.

The model covers the code around the extractors:

- how the window range is chosen, clamped and checked;
- how each member's configuration is drawn and clamped;
- how feature caps are split across transformers;
- how member results are collected, flattened and merged;
- that inference replays the transformers in fit order;
- MUSE's first-order-difference augmentation;
- how scores become labels.

The SFA extractor is a parameter: a pair of total functions over an opaque fitted state. So is the random generator: a function from a member's seed to its draws.

Modules:

- `Outcomes`: the exceptions on the modelled paths, as `Error` values, plus `Result` and `Option`.
- `Shapes`: rectangular matrices (`Matrix`) and three-dimensional panels (`Panel`); `X[:, dim]` and `squeeze(1)`.
- `FeatureMerge`: `np.concatenate(blocks, axis=1)`, written `Merge`, with where every block lands.
- `Sampling`: per-member seeds, `rng.choice`, word-length and dilation clamps, `np.arange`, and the window bound.
- `Ensemble`: SFA as an interface, fitted transformers, the ordered joblib map (`CollectAll`), and `extend` (`Flatten`).
- `Differences`: `_add_first_order_differences`.
- `Decision`: the mapping from scores to labels in `_predict_proba`.
- `Weasel`: `WEASEL_V2._fit` and `_transform_words`.
- `Muse`: `MUSE_V2._fit` and `_transform_words`.

Two behaviours of the code are kept as written:

- MUSE's per-transformer cap is `int(max_feature_count / (ensemble_size * n_dims))`. Python divides in floating point and `int` then truncates toward zero, so it is not floor division for a negative count. The model takes the exact truncated quotient (`Muse.TruncDiv`, `Muse.FeatureCap`), which is what the float computation gives while `|max_feature_count|` is below `2^53`.
- MUSE inference only fails when a series has more dimensions than were fitted: it then indexes past a member's transformer list. A series with at least one but fewer dimensions replays the first transformers, and `_transform_words` does not reject it (`Muse.TransformOrder`, `Muse.TransformRejectsExtraDims`). The ridge classifier, which is left out, then checks the feature count. A series with no dimensions at all leaves no block to merge, and the merge raises.

Source paths are relative to the repository root. Below, `u` is the number of first-difference options, `len(use_first_differences)`.

## Model

| member | source | states |
|---|---|---|
| Shapes.Channel | weasel/classification/dictionary_based/_muse_v2.py:364 | `X[:, dim]` is an `[n_instances, series_length]` matrix whose row `i` is dimension `dim` of instance `i` |
| Shapes.Squeeze | weasel/classification/dictionary_based/_weasel_v2.py:176 | `squeeze(1)` succeeds exactly when the input has one dimension, and then row `i` is that dimension of instance `i`; otherwise it raises |
| Sampling.MemberSeed | weasel/classification/dictionary_based/_weasel_v2.py:337-340 | with no `random_state`, every member draws from numpy's one global generator (`Shared(i)` names member `i`'s draws from that shared stream); otherwise member `i` owns a generator seeded with `random_state + i` |
| Sampling.MemberSeedsDistinct | weasel/classification/dictionary_based/_weasel_v2.py:337-340 | with a `random_state`, two different members of one ensemble never share a seed |
| Sampling.MemberSeedShift | weasel/classification/dictionary_based/_muse_v2.py:341-344 | member `i + 1` under `random_state = s` draws what member `i` draws under `s + 1` |
| Sampling.Choose | weasel/classification/dictionary_based/_weasel_v2.py:342 | `rng.choice` fails on an empty list and otherwise returns a member of the list |
| Sampling.ChooseReaches | weasel/classification/dictionary_based/_weasel_v2.py:342 | every candidate can be drawn |
| Sampling.ClampWordLength | weasel/classification/dictionary_based/_weasel_v2.py:351 | the word length is the smaller of `window_size - 2` and the drawn length: at most each, and equal to one of them |
| Sampling.FloorDilation | weasel/classification/dictionary_based/_weasel_v2.py:343-346 | the dilation is `max(1, k)`: at least 1 and at least `k`, and equal to one of them |
| Sampling.SampleConfig | weasel/classification/dictionary_based/_weasel_v2.py:342-353 | a member configuration exists exactly when every candidate list is nonempty. Each drawn value comes from its list. The word length never exceeds `window_size - 2` or the largest candidate length. The dilation is at least 1 |
| Weasel.MemberConfig | weasel/classification/dictionary_based/_weasel_v2.py:337-353 | member `i` draws from its own seed `MemberSeed(random_state, i)`. It succeeds exactly when the window range, the word lengths and the norm options are nonempty, with the alphabet fixed to 2 and the binning one of equi-depth and equi-width. The window and norm come from their lists, the word length is at most `window_size - 2`, and the dilation is at least 1 and at least the drawn exponent |
| Weasel.MemberConfigOwnDraws | weasel/classification/dictionary_based/_weasel_v2.py:337-353 | member `i`'s configuration depends only on the draws of its own seed |
| Muse.MemberConfig | weasel/classification/dictionary_based/_muse_v2.py:341-358 | member `ind` draws from its own seed `MemberSeed(random_state, ind)`. It succeeds exactly when the window range and the word-length, norm and binning lists are nonempty, with the alphabet fixed to 2. The window, norm and binning come from their lists, the word length is at most `window_size - 2`, and the dilation is at least 1 and at least the drawn exponent |
| Muse.MemberConfigOwnDraws | weasel/classification/dictionary_based/_muse_v2.py:341-358 | member `ind`'s configuration depends only on the draws of its own seed |
| Sampling.Range | weasel/classification/dictionary_based/_weasel_v2.py:202 | `np.arange(lo, hi + 1)` has `hi - lo + 1` entries (none when `hi < lo`), and entry `k` is `lo + k` |
| Sampling.RangeMembers | weasel/classification/dictionary_based/_weasel_v2.py:202 | the window range holds exactly the integers between its bounds |
| Sampling.BoundWindow | weasel/classification/dictionary_based/_weasel_v2.py:189-199 | the clamped maximum window is `min(series_length, max_window)`. The check passes exactly when `min_window` is at most both. The error reports the clamped maximum |
| FeatureMerge.Merge | weasel/classification/dictionary_based/_weasel_v2.py:236-240 | merging succeeds exactly on a nonempty list of blocks with equal row counts. It fails with an IndexError on an empty list and a row mismatch otherwise. The merged width is the sum of the block widths, and column `c` of block `k` lands at the block's offset plus `c`, row for row |
| FeatureMerge.MergeAssociative | weasel/classification/dictionary_based/_weasel_v2.py:231-240 | merging a concatenated block list equals merging each part and putting the results side by side, so per-member grouping does not change the matrix |
| Ensemble.FitTransform | weasel/classification/dictionary_based/_weasel_v2.py:381-383 | `fit_transform` returns exactly the block the SFA fit with those parameters produced, and the transformer keeps its construction parameters, the state that fit produced and the block's width |
| Ensemble.ReplayUsesFitState | weasel/classification/dictionary_based/_weasel_v2.py:293-295 | `transformer.transform` on new series applies the SFA with the parameters and the state that the transformer's own `fit_transform` produced, not a refit |
| Ensemble.CollectAll | weasel/classification/dictionary_based/_weasel_v2.py:204-229 | the parallel map succeeds exactly when every task does. Results come back in task order. A failure is the error of the first failing task |
| Ensemble.FlattenLength | weasel/classification/dictionary_based/_weasel_v2.py:231-234 | `extend` over lists of equal length `k` gives `k` entries per list |
| Ensemble.FlattenExtend | weasel/classification/dictionary_based/_weasel_v2.py:231-234 | each `extend` appends the next list at the end: flattening one more list is the earlier flattening followed by that list |
| Ensemble.FlattenAt | weasel/classification/dictionary_based/_weasel_v2.py:231-234 | after `extend`, entry `j` of list `i` is at position `i * k + j`: outer-major, inner-minor |
| Ensemble.FlattenWidths | weasel/classification/dictionary_based/_weasel_v2.py:231-234 | word blocks and transformers extended side by side stay aligned: flattened block `j` is as wide as flattened transformer `j` |
| Ensemble.OffsetMatchesWidths | weasel/classification/dictionary_based/_weasel_v2.py:231-240 | in blocks that match a transformer list width for width, block `j` starts at the summed widths of the transformers before it |
| Ensemble.BlockColumns | weasel/classification/dictionary_based/_weasel_v2.py:231-240 | after `extend` of lists of `n` blocks each, merged and matched width for width with `n` transformers each, block `d` of list `i` fills the merged columns from the summed widths of the flattened transformers before it on, row for row |
| Ensemble.SumCapsUniform | weasel/classification/dictionary_based/_weasel_v2.py:423 | transformers that share one cap sum to that cap times their number |
| Weasel.SelectBand | weasel/classification/dictionary_based/_weasel_v2.py:179-187 | there are three bands. Fewer than 250 instances give ensemble 50; otherwise series under 100 give 100, and the rest give 150. The band's maximum window is 24, 44 or 84 to match |
| Weasel.BandMonotone | weasel/classification/dictionary_based/_weasel_v2.py:179-187 | more instances or longer series never shrink the ensemble or the maximum window |
| Weasel.SfaParamsFor | weasel/classification/dictionary_based/_weasel_v2.py:408-427 | a transformer gets the member's configuration, its first-difference option and seed `i`. Its cap `c` satisfies `c * ensemble_size <= max_feature_count < (c + 1) * ensemble_size`, which is floor division. Variance is on; anova and bigrams are off |
| Weasel.FitMember | weasel/classification/dictionary_based/_weasel_v2.py:337-384 | a member succeeds exactly when its configuration can be drawn. It yields one block and one transformer per first-difference option, all sharing the configuration, each block as wide as its transformer. Block `k` and transformer `k`'s state are what the SFA fit with that transformer's parameters on the squeezed series and `y` returned |
| Weasel.FitMembers | weasel/classification/dictionary_based/_weasel_v2.py:204-229 | the parallel fit succeeds exactly when the window range, the word lengths and the norm options are nonempty, and only an empty choice makes it fail. It yields `ensemble_size` members in order, and member `i` is `_parallel_fit` for `i` |
| Weasel.MembersProvenance | weasel/classification/dictionary_based/_weasel_v2.py:204-234 | after `extend`, block and transformer `i * u + k` are member `i`'s for option `k`, and together they are what the SFA fit with that transformer's parameters on the squeezed series returned |
| Weasel.Fit | weasel/classification/dictionary_based/_weasel_v2.py:175-245 | multivariate input is refused. The window-range error happens exactly when `min_window` exceeds the series length or the band's maximum. The model records `n_instances` and `series_length` from the input's shape, the band's ensemble size, the clamped window and the window range; the candidate lists are nonempty, and `total_features_count` is the merged width |
| Weasel.FitLayout | weasel/classification/dictionary_based/_weasel_v2.py:204-234 | stored transformer `i * u + k` belongs to member `i` and first-difference option `k`, and carries member `i`'s configuration |
| Weasel.FitProvenance | weasel/classification/dictionary_based/_weasel_v2.py:204-240 | stored transformer `i * u + k` keeps the state of the SFA fit with its parameters on the squeezed series and `y`, and has that fit's block width. That block fills the training matrix row for row, from the summed widths of the transformers before it on |
| Weasel.FitSucceeds | weasel/classification/dictionary_based/_weasel_v2.py:175-245 | a fit succeeds when the input is univariate, `min_window` is at least 2 and at most the series length and the band's maximum window, every member seed `random_state + i` lies in numpy's range `[0, 2^32)`, the word lengths, norm options and first-difference options are nonempty, and the SFA gives one row per instance |
| Weasel.FitCounts | weasel/classification/dictionary_based/_weasel_v2.py:231-245 | a fit stores `ensemble_size * u` transformers, and `total_features_count` is the sum of their fit-time widths |
| Weasel.FitBudget | weasel/classification/dictionary_based/_weasel_v2.py:423 | every stored transformer has cap `max_feature_count // ensemble_size`, so all caps together stay within `u * max_feature_count` |
| Weasel.NoOptionsFails | weasel/classification/dictionary_based/_weasel_v2.py:231-238 | with an empty `use_first_differences`, the fit has no blocks and fails with an IndexError |
| Weasel.MergeNeedsBlocks | weasel/classification/dictionary_based/_weasel_v2.py:236-240 | the merge can only succeed when there is a member and a first-difference option, since otherwise there are no blocks |
| Weasel.TransformWords | weasel/classification/dictionary_based/_weasel_v2.py:290-311 | inference refuses multivariate input. Otherwise it succeeds exactly when there is a stored transformer and all replays have one row count. It fails with an IndexError when there is no transformer and a row mismatch otherwise. On success it has the replays' row count and is as wide as all replays together |
| Weasel.Replays | weasel/classification/dictionary_based/_weasel_v2.py:293-295 | one replayed block per stored transformer, in stored order: block `j` is transformer `j` applied to the new series |
| Weasel.SchemaStable | weasel/classification/dictionary_based/_weasel_v2.py:290-311 | when each replay keeps its fit-time width, inference succeeds with exactly `total_features_count` columns and one row per new instance |
| Weasel.TransformProvenance | weasel/classification/dictionary_based/_weasel_v2.py:293-309 | column `c` of transformer `j`'s replay lands at that block's offset plus `c` in the inference matrix |
| Weasel.TransformColumns | weasel/classification/dictionary_based/_weasel_v2.py:290-311 | when every replay keeps its fit-time shape, inference has one row per new instance, and replay `j` fills the columns from the summed widths of the transformers before it on. Those are the columns its fit-time block fills in the training matrix |
| Differences.Diff | weasel/classification/dictionary_based/_muse_v2.py:306 | `np.diff` has one value fewer than the channel, and value `t` is `ch[t + 1] - ch[t]` |
| Differences.DifferenceChannel | weasel/classification/dictionary_based/_muse_v2.py:304-307 | the difference channel has the channel's length. It holds `np.diff` in its first `L - 1` positions and a trailing zero |
| Differences.AddFirstOrderDifferences | weasel/classification/dictionary_based/_muse_v2.py:303-308 | augmentation doubles the dimensions and keeps the length. Dimension `c` is the input, and dimension `C + c` is its difference channel |
| Differences.AugmentedValues | weasel/classification/dictionary_based/_muse_v2.py:303-308 | value by value, the augmented series holds the input, then the successive differences and a final 0 |
| Differences.ConstantChannelHasZeroDifference | weasel/classification/dictionary_based/_muse_v2.py:306 | a constant channel augments to an all-zero difference channel |
| Differences.IntegrateDiff | weasel/classification/dictionary_based/_muse_v2.py:306 | a channel is recovered from its first value and its successive differences |
| Differences.AugmentationRecoversInput | weasel/classification/dictionary_based/_muse_v2.py:303-308 | each input dimension is the running sum of its difference dimension, so augmentation loses nothing |
| Decision.Argmax | weasel/classification/dictionary_based/_muse_v2.py:281 | `argmax` returns the first index holding the largest score |
| Decision.ArgmaxUnique | weasel/classification/dictionary_based/_muse_v2.py:281 | any index that is the first maximum is the one `argmax` returns |
| Decision.MarginIndex | weasel/classification/dictionary_based/_muse_v2.py:279 | a margin selects index 1 exactly when it is positive |
| Decision.MarginIsTwoClassArgmax | weasel/classification/dictionary_based/_muse_v2.py:277-281 | the sign test equals the argmax over the two-class scores `(-s, s)`; a zero margin goes to class 0 |
| Decision.ClassIndices | weasel/classification/dictionary_based/_muse_v2.py:277-281 | there is one index per instance. Margins give `scores > 0`; score rows give their first maximum. A score matrix with no columns raises |
| Decision.Lookup | weasel/classification/dictionary_based/_muse_v2.py:282 | `classes_[indices]` succeeds exactly when every index has a class, and picks label by label |
| Decision.PredictLabels | weasel/classification/dictionary_based/_weasel_v2.py:280-286 | a positive margin gives `classes_[1]` and any other margin gives `classes_[0]`. A score row gives the class of its first maximum. It succeeds exactly when every chosen index has a class |
| Decision.NonPositiveMarginsGiveFirstClass | weasel/classification/dictionary_based/_weasel_v2.py:282-286 | with two classes and no positive margin, every instance gets the first class |
| Muse.Prepare | weasel/classification/dictionary_based/_muse_v2.py:168-171 | with `use_first_differences`, the dimensions double: the input is kept in front and its difference channels follow. Without it, the input is unchanged |
| Muse.CeilLog2 | weasel/classification/dictionary_based/_muse_v2.py:173 | `ceil(log2(n))` is an exponent `k` with `2^k >= n` whose predecessor falls short |
| Muse.CeilLog2Least | weasel/classification/dictionary_based/_muse_v2.py:173 | no exponent smaller than `ceil(log2(n))` reaches `n` |
| Muse.HighestDimBit | weasel/classification/dictionary_based/_muse_v2.py:173 | `highest_dim_bit` is `ceil(log2(n_dims)) + 1`, and `math.log2` raises exactly when there are no dimensions |
| Muse.TruncDiv | weasel/classification/dictionary_based/_muse_v2.py:380 | `int(a / b)` is the quotient truncated toward zero, for negative numerators too |
| Muse.FeatureCap | weasel/classification/dictionary_based/_muse_v2.py:380 | the cap is the quotient of `max_feature_count` by `ensemble_size * n_dims` truncated toward zero. For a non-negative count, `cap * n <= count < (cap + 1) * n`; for a negative one, `cap <= 0` and `(cap - 1) * n < count <= cap * n` |
| Muse.MemberCount | weasel/classification/dictionary_based/_muse_v2.py:220 | `range(ensemble_size)` has `ensemble_size` members, and none when that is not positive |
| Muse.SfaParamsFor | weasel/classification/dictionary_based/_muse_v2.py:366-384 | a dimension's transformer gets the member's configuration, first differences off, seed `ind`, and cap `int(max_feature_count / (ensemble_size * n_dims))` |
| Muse.FitMember | weasel/classification/dictionary_based/_muse_v2.py:322-388 | a member succeeds exactly when its configuration can be drawn. It yields one block and one transformer per dimension, sharing one configuration, each block as wide as its transformer. Block `d` and transformer `d`'s state are what the SFA fit with that transformer's parameters on `X[:, d]` and `y` returned |
| Muse.FitMembers | weasel/classification/dictionary_based/_muse_v2.py:199-221 | the members come back in order, one per `range(ensemble_size)`. Only an empty candidate list makes them fail |
| Muse.MembersProvenance | weasel/classification/dictionary_based/_muse_v2.py:360-386 | member `i`'s block for dimension `d` sits at `i * n_dims + d` of the flattened words. It and the member's transformer `d` are what the SFA fit with that transformer's parameters on `X[:, d]` and `y` returned |
| Muse.Fit | weasel/classification/dictionary_based/_muse_v2.py:166-240 | the errors come in the source's order: no dimensions gives `log2(0)`, then `variance` with `anova`, then the window range, which fails exactly when `min_window` exceeds the series length or `max_window`. The model records the augmented dimension count, `highest_dim_bit` equal to `ceil(log2(n_dims)) + 1` (the value `HighestDimBit` computes), the clamped window, the window range and the merged width |
| Muse.FitPrepared | weasel/classification/dictionary_based/_muse_v2.py:184-240 | after the dimension checks, the fit fails on the window range exactly when `min_window` exceeds the clamped bound. Otherwise it records that bound and the range |
| Muse.MembersLayout | weasel/classification/dictionary_based/_muse_v2.py:363-386 | member `i`'s transformer for dimension `d` carries member `i`'s configuration |
| Muse.FitShape | weasel/classification/dictionary_based/_muse_v2.py:223-230 | a fit stores one transformer list per member (`append`, not `extend`), `ensemble_size` lists of `n_dims` transformers each, counted after augmentation |
| Muse.FitLayout | weasel/classification/dictionary_based/_muse_v2.py:346-386 | all of member `i`'s transformers share its one configuration, with first differences off, seed `i` and the truncated cap |
| Muse.FitProvenance | weasel/classification/dictionary_based/_muse_v2.py:199-235 | transformer `d` of member `i` sits at `i * n_dims + d` of the flattened list. It keeps the state of the SFA fit with its parameters on dimension `d` of the augmented series and `y`, with that fit's block width. That block fills the training matrix row for row, from the summed widths of the transformers before it on |
| Muse.FitSucceeds | weasel/classification/dictionary_based/_muse_v2.py:166-240 | a fit succeeds when there is a dimension, `variance` and `anova` are not both set, `min_window` is at least 2 and at most the series length and `max_window`, every member seed `random_state + ind` lies in numpy's range `[0, 2^32)`, the ensemble has a member, the candidate lists are nonempty, and the SFA gives one row per instance |
| Muse.FitCounts | weasel/classification/dictionary_based/_muse_v2.py:223-240 | a fit holds `ensemble_size * n_dims` transformers, and `total_features_count` is the sum of their fit-time widths |
| Muse.FitBudget | weasel/classification/dictionary_based/_muse_v2.py:380 | every transformer gets the same truncated share, so for a non-negative `max_feature_count` all caps together stay within it |
| Muse.NoMembersFails | weasel/classification/dictionary_based/_muse_v2.py:220-235 | with a non-positive `ensemble_size`, a fit that passes its checks has no blocks and fails with an IndexError |
| Muse.ReplayMember | weasel/classification/dictionary_based/_muse_v2.py:311-319 | a member's replay fails exactly when the series has more dimensions than the member has transformers. Otherwise dimension `d` goes through transformer `d` |
| Muse.ReplayAll | weasel/classification/dictionary_based/_muse_v2.py:288-295 | the inference map succeeds exactly when every member has at least as many transformers as the series has dimensions, and otherwise raises the IndexError. It yields one block per member and dimension |
| Muse.ReplayLayout | weasel/classification/dictionary_based/_muse_v2.py:288-295 | replayed block `i * n + d` is member `i`'s transformer `d` applied to dimension `d` |
| Muse.TransformOrder | weasel/classification/dictionary_based/_muse_v2.py:284-301 | when the series has at most the fitted dimension count, inference augments it as at fit time and yields `ensemble_size * dims` blocks. Block `i * dims + d` is member `i`'s transformer `d` on dimension `d`, and the blocks are merged |
| Muse.TransformWords | weasel/classification/dictionary_based/_muse_v2.py:284-301 | inference raises the IndexError exactly when a member's replay does. It succeeds exactly when the replays do, there is a member, the augmented series has a dimension and all blocks have one row count. It is then as wide as all blocks together |
| Muse.TransformColumns | weasel/classification/dictionary_based/_muse_v2.py:284-301 | when the series has the fitted dimension count and every replay keeps its fit-time shape, replay `d` of member `i` fills the columns from the summed widths of the flattened transformers before it on. Those are the columns its fit-time block fills in the training matrix |
| Muse.TransformRejectsExtraDims | weasel/classification/dictionary_based/_muse_v2.py:311-319 | a series with more dimensions than were fitted (after augmentation) fails with an index past the transformer list |
| Muse.ReplayWidths | weasel/classification/dictionary_based/_muse_v2.py:293-299 | replays that keep their widths merge into a matrix as wide as all transformers together, one row per instance |
| Muse.SchemaStable | weasel/classification/dictionary_based/_muse_v2.py:284-301 | when a series has as many dimensions as the training series and each replay keeps its width, inference has exactly `total_features_count` columns and one row per new instance |

## Left out

- `SFADilation` is not part of this model. Its word extraction, binning, feature selection and sparse output are a pair of total functions over an opaque state. The only constraint on them is that a fitted transformer's block has some width.
- The ridge classifier (`RidgeClassifierCV`), its cross-validation score and `decision_function` are left out. The model starts from the decision scores.
- The random generator is a function from a member's seed to its draws. `check_random_state` is not modelled, and neither is the check that a seed lies in numpy's seed range `[0, 2^32)`: the model's fit succeeds for any seed, while the source raises a ValueError outside that range.
- The floating-point dilation draw `np.int32(2 ** rng.uniform(0, log2((L - 1) / (w - 1))))` is left out. Only the floor `max(1, k)` on the drawn integer is modelled. That leaves out the degenerate draw for a window of at most 1, reachable when `min_window <= 1`. A window of 1 divides by zero and gives `inf` or `nan`; a window of 0 or less gives a ratio of at most 0, whose `log2` is `nan` or `-inf`; either way `uniform` raises. The model's fit succeeds there, while the source raises.
- The choice `rng.choice([False])` for MUSE's first difference always yields `False`. It is modelled as that constant; the draw it consumes is part of the abstract draws.
- Threads, `n_jobs`, joblib's `timeout` and `prefer` are left out. The parallel map is an ordered sequential map whose first failure aborts the fit.
- Dense versus sparse blocks are merged alike: `np.concatenate` and scipy's `hstack` give the same matrix.
- Warnings are left out, including MUSE's univariate warning, which has no effect on the result.
- `lower_bounding`, `remove_repeat_words`, `sections` and `return_sparse` are not modelled. They only reach `SFADilation`. MUSE does not pass `remove_repeat_words` or `lower_bounding` (both are commented out), nor `sections`.
- With no `random_state`, every member draws from numpy's one global generator. Which values a member gets then depends on earlier draws and on the order in which the threads draw. The model names member `i`'s share of that stream `Shared(i)` and leaves the interleaving out.
- `math.log2` is floating point. For dimension counts where a rounded logarithm would differ from the exact one, the model uses the exact ceiling.
- `np.int`, which is used in `_predict_proba`, is an alias that newer numpy removed. The model takes the integer cast it intends.
- Refitting one WEASEL instance is not modelled. `SFA_transformers` is extended without being cleared, so a second `_fit` on the same object would keep the first fit's transformers. The model starts from a fresh list. Both classifiers also overwrite `max_window` with the clamped value. The model keeps the configured bound in `Settings` and the clamped one in the fitted model.
- Weasel.Fit: does not state the row count of the training matrix, because the row count of an SFA block is a property of the extractor, which is not modelled.
- Muse.Fit: does not state the row count of the training matrix, for the same reason.
- Weasel.SchemaStable: assumes each replay keeps its fit-time width and gives one row per instance (`KeepsShape`), because that is a property of the extractor.
- Muse.SchemaStable: makes the same assumption as `Weasel.SchemaStable`.
- Muse.FitBudget: the bound on the summed caps is stated only for a non-negative `max_feature_count`. For a negative one, truncation makes each cap round up toward zero.
- Sampling.SampleConfig: the drawn dilation is only bounded below, since its floating-point derivation is left out. For a drawn window of at most 1 (reachable when `min_window <= 1`) the source's draw raises, and the model yields a configuration.
- Weasel.Fit: succeeds for any `min_window <= 1` (so a drawn window of at most 1) and for seeds outside numpy's range, where the source raises, for the two reasons above. `Weasel.FitSucceeds` requires both away.
- Muse.Fit: the same as `Weasel.Fit`: it succeeds for any `min_window <= 1` and for seeds outside numpy's range, where the source raises; `Muse.FitSucceeds` requires both away.
- Muse.TruncDiv: the exact truncated quotient, where Python computes `int` of a float quotient. The two agree while `|max_feature_count|` is below `2^53`; beyond that, rounding can differ.
- Decision.PredictLabels: scores are exact real numbers. NaN scores are left out: on them numpy's `argmax` returns the first NaN, and `NaN > 0` is false.

=== FILE: decision.dfy ===
/** From decision scores to class labels (`_predict_proba`).

    The ridge classifier returns one margin per instance for two classes and
    one score per class otherwise. A margin selects class index `1` exactly
    when it is positive; a score row selects the first index of its largest
    score (`argmax`). The indices then pick labels out of `classes_`.
 */
module Decision {
  import opened Outcomes
  import opened Shapes

  /** `decision_function` output: one-dimensional margins or a score matrix. */
  datatype Scores = Margins(values: seq<real>) | PerClass(scores: Matrix)

  /** `argmax`: the first index holding the largest value. */
  function Argmax(row: seq<real>): (k: nat)
    requires |row| > 0
    ensures k < |row|
    ensures forall j | 0 <= j < |row| :: row[j] <= row[k]
    ensures forall j | 0 <= j < k :: row[j] < row[k]
  {
    if |row| == 1 then 0
    else
      var k := Argmax(row[..|row| - 1]);
      assert forall j | 0 <= j < |row| - 1 :: row[..|row| - 1][j] == row[j];
      if row[|row| - 1] > row[k] then |row| - 1 else k
  }

  /** Only one index is the first maximum. */
  lemma ArgmaxUnique(row: seq<real>, k: nat)
    requires k < |row|
    requires forall j | 0 <= j < |row| :: row[j] <= row[k]
    requires forall j | 0 <= j < k :: row[j] < row[k]
    ensures Argmax(row) == k
  {
  }

  /** The sign test on a margin. */
  function MarginIndex(score: real): (k: nat)
    ensures k == 1 <==> score > 0.0
    ensures k == 0 <==> score <= 0.0
  {
    if score > 0.0 then 1 else 0
  }

  /** The sign test is the argmax over the two-class scores `(-score, score)`,
      a tie going to class 0. */
  lemma MarginIsTwoClassArgmax(score: real)
    ensures MarginIndex(score) == Argmax([-score, score])
  {
    ArgmaxUnique([-score, score], MarginIndex(score));
  }

  /** The class index for every instance. */
  function ClassIndices(s: Scores): (r: Result<seq<nat>>)
    ensures r.Failure? <==> s.PerClass? && s.scores.cols == 0
    ensures r.Failure? ==> r.error == EmptyScores
    ensures r.Success? && s.Margins? ==>
      |r.value| == |s.values| && forall i | 0 <= i < |s.values| :: (r.value[i] == 1 <==> s.values[i] > 0.0) && r.value[i] <= 1
    ensures r.Success? && s.PerClass? ==>
      |r.value| == |s.scores.rows| &&
      forall i | 0 <= i < |s.scores.rows| ::
        r.value[i] < s.scores.cols &&
        (forall j | 0 <= j < s.scores.cols :: s.scores.rows[i][j] <= s.scores.rows[i][r.value[i]]) &&
        (forall j | 0 <= j < r.value[i] :: s.scores.rows[i][j] < s.scores.rows[i][r.value[i]])
  {
    match s
    case Margins(v) => Success(seq(|v|, i requires 0 <= i < |v| => MarginIndex(v[i])))
    case PerClass(m) =>
      if m.cols == 0 then Failure(EmptyScores)
      else Success(seq(|m.rows|, i requires 0 <= i < |m.rows| => Argmax(m.rows[i])))
  }

  /** `classes_[indices]`: numpy stops at an index with no class. */
  function Lookup(classes: seq<Label>, indices: seq<nat>): (r: Result<seq<Label>>)
    ensures r.Success? <==> forall i | 0 <= i < |indices| :: indices[i] < |classes|
    ensures r.Success? ==> |r.value| == |indices| && forall i | 0 <= i < |indices| :: r.value[i] == classes[indices[i]]
    ensures r.Failure? ==> r.error.ClassIndexOutOfRange? && r.error.index >= |classes| == r.error.classes
  {
    if |indices| == 0 then Success([])
    else if indices[0] >= |classes| then Failure(ClassIndexOutOfRange(indices[0], |classes|))
    else
      var rest := Lookup(classes, indices[1..]);
      if rest.Failure? then rest
      else
        assert forall i | 0 <= i < |indices| - 1 :: indices[1..][i] == indices[i + 1];
        Success([classes[indices[0]]] + rest.value)
  }

  /** `_predict_proba`: the label chosen for each instance. */
  function PredictLabels(classes: seq<Label>, s: Scores): (r: Result<seq<Label>>)
    ensures s.Margins? ==>
      (r.Success? <==> forall i | 0 <= i < |s.values| :: MarginIndex(s.values[i]) < |classes|)
    ensures r.Success? && s.Margins? ==>
      |r.value| == |s.values| &&
      forall i | 0 <= i < |s.values| :: r.value[i] == if s.values[i] > 0.0 then classes[1] else classes[0]
    ensures s.PerClass? ==>
      (r.Success? <==> s.scores.cols > 0 && forall i | 0 <= i < |s.scores.rows| :: Argmax(s.scores.rows[i]) < |classes|)
    ensures r.Success? && s.PerClass? ==>
      |r.value| == |s.scores.rows| &&
      forall i | 0 <= i < |s.scores.rows| :: r.value[i] == classes[Argmax(s.scores.rows[i])]
  {
    var indices :- ClassIndices(s);
    Lookup(classes, indices)
  }

  /** With two classes and no positive margin, every instance gets the first class. */
  lemma NonPositiveMarginsGiveFirstClass(classes: seq<Label>, values: seq<real>)
    requires |classes| == 2
    requires forall i | 0 <= i < |values| :: values[i] <= 0.0
    ensures PredictLabels(classes, Margins(values)) == Success(seq(|values|, _ => classes[0]))
  {
    var r := PredictLabels(classes, Margins(values));
    assert r.Success?;
    var expected := seq(|values|, _ => classes[0]);
    assert forall i | 0 <= i < |values| :: r.value[i] == expected[i];
    assert r.value == expected;
  }
}

=== FILE: differences.dfy ===
/** MUSE's first-order-difference augmentation.

    `[n, C, L]` becomes `[n, 2C, L]`: channels `0 .. C-1` are the input, and
    channel `C + c` holds the discrete difference of channel `c` (`L - 1`
    values) followed by one zero, because the output starts as zeros and only
    its first `L - 1` positions receive the difference.
 */
module Differences {
  import opened Shapes

  /** `np.diff(ch)`: successive differences, one fewer than the values. */
  function Diff(ch: seq<real>): (d: seq<real>)
    ensures |d| == if |ch| == 0 then 0 else |ch| - 1
    ensures forall t | 0 <= t < |d| :: d[t] == ch[t + 1] - ch[t]
  {
    if |ch| <= 1 then [] else [ch[1] - ch[0]] + Diff(ch[1..])
  }

  /** The difference channel: `Diff(ch)` written into a zero channel of the same length. */
  function DifferenceChannel(ch: seq<real>): (r: seq<real>)
    ensures |r| == |ch|
    ensures forall t | 0 <= t < |ch| - 1 :: r[t] == ch[t + 1] - ch[t]
    ensures |ch| > 0 ==> r[|ch| - 1] == 0.0
    ensures |ch| > 0 ==> r[..|ch| - 1] == Diff(ch)
  {
    var d := Diff(ch);
    d + seq(|ch| - |d|, _ => 0.0)
  }

  /** `_add_first_order_differences`. */
  function AddFirstOrderDifferences(x: Panel): (r: Panel)
    ensures r.channels == 2 * x.channels && r.length == x.length && |r.data| == |x.data|
    ensures forall i, c | 0 <= i < |x.data| && 0 <= c < x.channels ::
      r.data[i][c] == x.data[i][c] && r.data[i][x.channels + c] == DifferenceChannel(x.data[i][c])
  {
    var n := |x.data|;
    var cube := Cube(2 * x.channels, x.length,
      seq(n, i requires 0 <= i < n =>
        x.data[i] + seq(x.channels, c requires 0 <= c < x.channels => DifferenceChannel(x.data[i][c]))));
    assert Shaped(cube);
    cube
  }

  /** Every augmented value, position by position: the copy, the difference, the trailing zero. */
  lemma AugmentedValues(x: Panel, i: nat, c: nat, t: nat)
    requires i < |x.data| && c < x.channels && t < x.length
    ensures AddFirstOrderDifferences(x).data[i][c][t] == x.data[i][c][t]
    ensures t < x.length - 1 ==>
      AddFirstOrderDifferences(x).data[i][x.channels + c][t] == x.data[i][c][t + 1] - x.data[i][c][t]
    ensures t == x.length - 1 ==> AddFirstOrderDifferences(x).data[i][x.channels + c][t] == 0.0
  {
  }

  /** A constant channel has an all-zero difference channel. */
  lemma ConstantChannelHasZeroDifference(ch: seq<real>)
    requires forall t | 0 <= t < |ch| :: ch[t] == ch[0]
    ensures DifferenceChannel(ch) == seq(|ch|, _ => 0.0)
  {
    var r := DifferenceChannel(ch);
    forall t | 0 <= t < |ch|
      ensures r[t] == 0.0
    {
      if t < |ch| - 1 {
        assert ch[t + 1] == ch[t];
      }
    }
  }

  /** Running sums from a starting value: the inverse of `Diff`. */
  function Integrate(start: real, d: seq<real>): (r: seq<real>)
    ensures |r| == |d| + 1 && r[0] == start
    decreases |d|
  {
    if |d| == 0 then [start] else [start] + Integrate(start + d[0], d[1..])
  }

  /** A channel is recovered from its first value and its differences. */
  lemma {:induction false} IntegrateDiff(ch: seq<real>)
    requires |ch| > 0
    ensures Integrate(ch[0], Diff(ch)) == ch
  {
    if |ch| > 1 {
      IntegrateDiff(ch[1..]);
      assert ch[0] + (ch[1] - ch[0]) == ch[1];
      assert Diff(ch)[1..] == Diff(ch[1..]);
      assert ch == [ch[0]] + ch[1..];
    }
  }

  /** The augmentation loses nothing: each raw channel is the running sum of
      its difference channel, started at its first value. */
  lemma AugmentationRecoversInput(x: Panel, i: nat, c: nat)
    requires i < |x.data| && c < x.channels && x.length > 0
    ensures var r := AddFirstOrderDifferences(x);
      Integrate(r.data[i][c][0], r.data[i][x.channels + c][..x.length - 1]) == x.data[i][c]
  {
    IntegrateDiff(x.data[i][c]);
  }
}

=== FILE: ensemble.dfy ===
/** The ensemble plumbing both classifiers share.

    SFA (`SFADilation`) is not part of this model: it is a pair of total
    functions over an opaque fitted state. A fitted transformer keeps the
    parameters it was built with and the width of the block it produced at
    fit time. The parallel map over members is modelled as an ordered
    sequential map whose first failure aborts the whole fit, and the
    `extend` accumulation of per-member lists as `Flatten`.
 */
module Ensemble {
  import opened Outcomes
  import opened Shapes
  import opened Sampling
  import opened FeatureMerge

  /** The keyword arguments an `SFADilation` is constructed with. */
  datatype SfaParams = SfaParams(
    config: Config,
    firstDifference: bool,
    maxFeatureCount: int,
    randomState: nat,
    variance: bool,
    anova: bool,
    bigrams: bool,
    featureSelection: string)

  /** The word extractor: `fit_transform` and `transform`. */
  datatype Sfa<!Tr> = Sfa(
    fit: (SfaParams, Matrix, seq<Label>) -> (Matrix, Tr),
    transform: (SfaParams, Tr, Matrix) -> Matrix)

  /** A fitted transformer: its parameters, its opaque state and the width
      of the word block it produced when fitted. */
  datatype Fitted<Tr> = Fitted(params: SfaParams, state: Tr, width: nat)

  /** `transformer.fit_transform(X, y)`: the fit-time block and the transformer
      that made it, which keeps the very state that fit produced so that
      inference replays the same vocabulary. */
  function FitTransform<Tr>(sfa: Sfa<Tr>, params: SfaParams, x: Matrix, y: seq<Label>): (r: (Matrix, Fitted<Tr>))
    ensures r.1.params == params
    ensures r.1.width == r.0.cols
    ensures (r.0, r.1.state) == sfa.fit(params, x, y)
  {
    var (block, state) := sfa.fit(params, x, y);
    (block, Fitted(params, state, block.cols))
  }

  /** `transformer.transform(X)`: replays a fitted transformer on new series. */
  function Replay<Tr>(sfa: Sfa<Tr>, t: Fitted<Tr>, x: Matrix): Matrix {
    sfa.transform(t.params, t.state, x)
  }

  /** Inference replays the vocabulary the fit learned: a transformer made by
      `fit_transform` transforms new series with its parameters and the state
      that very fit produced, never with a refit on the new series. */
  lemma ReplayUsesFitState<Tr>(sfa: Sfa<Tr>, params: SfaParams, x: Matrix, y: seq<Label>, xNew: Matrix)
    ensures Replay(sfa, FitTransform(sfa, params, x, y).1, xNew) == sfa.transform(params, sfa.fit(params, x, y).1, xNew)
  {
  }

  /** The word extractor gives one row per input instance when fitted against labels `y`. */
  ghost predicate RowPreserving<Tr>(sfa: Sfa<Tr>, y: seq<Label>) {
    forall p, g :: |sfa.fit(p, g, y).0.rows| == |g.rows|
  }

  /** A replay that keeps the fit-time width and gives one row per instance. */
  predicate KeepsShape<Tr>(sfa: Sfa<Tr>, t: Fitted<Tr>, xx: Matrix) {
    Replay(sfa, t, xx).cols == t.width && |Replay(sfa, t, xx).rows| == |xx.rows|
  }

  /** The summed fit-time widths of a transformer list. */
  function SumWidths<Tr>(ts: seq<Fitted<Tr>>): nat {
    if |ts| == 0 then 0 else SumWidths(ts[..|ts| - 1]) + ts[|ts| - 1].width
  }

  /** The summed feature caps of a transformer list. */
  function SumCaps<Tr>(ts: seq<Fitted<Tr>>): int {
    if |ts| == 0 then 0 else SumCaps(ts[..|ts| - 1]) + ts[|ts| - 1].params.maxFeatureCount
  }

  /** Transformers that all carry the same cap sum to that cap times their number. */
  lemma {:induction false} SumCapsUniform<Tr>(ts: seq<Fitted<Tr>>, cap: int)
    requires forall j | 0 <= j < |ts| :: ts[j].params.maxFeatureCount == cap
    ensures SumCaps(ts) == |ts| * cap
  {
    if |ts| > 0 {
      SumCapsUniform(ts[..|ts| - 1], cap);
    }
  }

  /** The joblib result list: every task's value in task order, or the first failure. */
  function CollectAll<X>(rs: seq<Result<X>>): (r: Result<seq<X>>)
    ensures r.Success? <==> forall i | 0 <= i < |rs| :: rs[i].Success?
    ensures r.Success? ==> |r.value| == |rs| && forall i | 0 <= i < |rs| :: r.value[i] == rs[i].value
    ensures r.Failure? ==>
      exists i | 0 <= i < |rs| :: rs[i] == Failure(r.error) && forall j | 0 <= j < i :: rs[j].Success?
  {
    if |rs| == 0 then Success([])
    else if rs[0].Failure? then Failure(rs[0].error)
    else
      var rest := CollectAll(rs[1..]);
      if rest.Failure? then
        assert forall i | 0 <= i < |rs| - 1 :: rs[1..][i] == rs[i + 1];
        Failure(rest.error)
      else Success([rs[0].value] + rest.value)
  }

  /** Concatenation of a list of lists, in order (Python's repeated `extend`). */
  function Flatten<X>(xss: seq<seq<X>>): seq<X> {
    if |xss| == 0 then [] else xss[0] + Flatten(xss[1..])
  }

  /** One more `extend` appends the next list at the end: flattening is the
      accumulator of the source's loop. */
  lemma {:induction false} FlattenExtend<X>(xss: seq<seq<X>>, xs: seq<X>)
    ensures Flatten(xss + [xs]) == Flatten(xss) + xs
  {
    if |xss| == 0 {
      assert xss + [xs] == [xs];
      assert Flatten([xs]) == xs + Flatten([xs][1..]);
    } else {
      assert (xss + [xs])[1..] == xss[1..] + [xs];
      FlattenExtend(xss[1..], xs);
    }
  }

  /** When every inner list has length `k`, the flattened list has `|xss| * k` entries. */
  lemma {:induction false} FlattenLength<X>(xss: seq<seq<X>>, k: nat)
    requires forall i | 0 <= i < |xss| :: |xss[i]| == k
    ensures |Flatten(xss)| == |xss| * k
  {
    if |xss| > 0 {
      FlattenLength(xss[1..], k);
    }
  }

  /** The flattened position of entry `j` of inner list `i` when every inner list has length `k`. */
  function Slot(i: nat, k: nat, j: nat): nat {
    i * k + j
  }

  /** Entry `j` of inner list `i` sits at `i * k + j`: outer-major, inner-minor order. */
  lemma {:induction false} FlattenAt<X>(xss: seq<seq<X>>, k: nat, i: nat, j: nat)
    requires forall m | 0 <= m < |xss| :: |xss[m]| == k
    requires i < |xss| && j < k
    ensures Slot(i, k, j) < |Flatten(xss)|
    ensures Flatten(xss)[Slot(i, k, j)] == xss[i][j]
  {
    FlattenLength(xss, k);
    if i > 0 {
      FlattenAt(xss[1..], k, i - 1, j);
      assert i * k + j == k + ((i - 1) * k + j);
    }
  }

  /** Two list-of-lists with the same shape, whose entries agree in width,
      flatten to lists that agree in width entry by entry. */
  lemma {:induction false} FlattenWidths<Tr>(ws: seq<seq<Matrix>>, ts: seq<seq<Fitted<Tr>>>)
    requires |ws| == |ts|
    requires forall i | 0 <= i < |ws| :: |ws[i]| == |ts[i]|
    requires forall i, j | 0 <= i < |ws| && 0 <= j < |ws[i]| :: ws[i][j].cols == ts[i][j].width
    ensures |Flatten(ws)| == |Flatten(ts)|
    ensures forall j | 0 <= j < |Flatten(ws)| :: Flatten(ws)[j].cols == Flatten(ts)[j].width
  {
    if |ws| > 0 {
      FlattenWidths(ws[1..], ts[1..]);
      var fw := Flatten(ws);
      var ft := Flatten(ts);
      forall j | 0 <= j < |fw|
        ensures fw[j].cols == ft[j].width
      {
        if j >= |ws[0]| {
          assert fw[j] == Flatten(ws[1..])[j - |ws[0]|];
          assert ft[j] == Flatten(ts[1..])[j - |ts[0]|];
        }
      }
    }
  }

  /** Blocks whose widths are the fit-time widths of a transformer list, entry by entry,
      are together as wide as those transformers. */
  lemma {:induction false} TotalColsMatchesWidths<Tr>(ws: seq<Matrix>, ts: seq<Fitted<Tr>>)
    requires |ws| == |ts|
    requires forall j | 0 <= j < |ws| :: ws[j].cols == ts[j].width
    ensures TotalCols(ws) == SumWidths(ts)
  {
    if |ws| > 0 {
      TotalColsMatchesWidths(ws[..|ws| - 1], ts[..|ts| - 1]);
    }
  }

  /** Blocks that agree in width with a transformer list entry by entry start
      where the transformers before them end: block `j` begins at column
      `SumWidths(ts[..j])`. */
  lemma OffsetMatchesWidths<Tr>(ws: seq<Matrix>, ts: seq<Fitted<Tr>>, j: nat)
    requires |ws| == |ts| && j <= |ws|
    requires forall q | 0 <= q < |ws| :: ws[q].cols == ts[q].width
    ensures Offset(ws, j) == SumWidths(ts[..j])
  {
    TotalColsMatchesWidths(ws[..j], ts[..j]);
  }

  /** Merging the flattened blocks of lists that hold `n` blocks each, as wide
      as `n` matching transformers: block `d` of list `i` fills the columns
      from `SumWidths` of the flattened transformers before it on, row for row. */
  lemma {:induction false} BlockColumns<Tr>(wss: seq<seq<Matrix>>, tss: seq<seq<Fitted<Tr>>>, n: nat, g: Matrix, i: nat, d: nat)
    requires |wss| == |tss|
    requires forall q | 0 <= q < |wss| :: |wss[q]| == n && |tss[q]| == n
    requires forall q, e | 0 <= q < |wss| && 0 <= e < n :: wss[q][e].cols == tss[q][e].width
    requires Merge(Flatten(wss)) == Success(g)
    requires i < |wss| && d < n
    ensures Slot(i, n, d) < |Flatten(tss)| && Flatten(tss)[Slot(i, n, d)] == tss[i][d]
    ensures |wss[i][d].rows| == |g.rows|
    ensures SumWidths(Flatten(tss)[..Slot(i, n, d)]) + wss[i][d].cols <= g.cols
    ensures forall row, c | 0 <= row < |wss[i][d].rows| && 0 <= c < wss[i][d].cols ::
      g.rows[row][SumWidths(Flatten(tss)[..Slot(i, n, d)]) + c] == wss[i][d].rows[row][c]
  {
    var bs := Flatten(wss);
    var ts := Flatten(tss);
    var j := Slot(i, n, d);
    FlattenAt(wss, n, i, d);
    FlattenAt(tss, n, i, d);
    FlattenWidths(wss, tss);
    OffsetMatchesWidths(bs, ts, j);
    assert bs[j] == wss[i][d] && Offset(bs, j) == SumWidths(ts[..j]);
    forall row, c | 0 <= row < |bs[j].rows| && 0 <= c < bs[j].cols
      ensures g.rows[row][Offset(bs, j) + c] == bs[j].rows[row][c]
    {
    }
  }

  /** A property of every inner entry holds of every flattened entry. */
  lemma {:induction false} FlattenAll<X>(xss: seq<seq<X>>, p: X -> bool)
    requires forall i, k | 0 <= i < |xss| && 0 <= k < |xss[i]| :: p(xss[i][k])
    ensures forall j | 0 <= j < |Flatten(xss)| :: p(Flatten(xss)[j])
  {
    if |xss| > 0 {
      FlattenAll(xss[1..], p);
      var f := Flatten(xss);
      forall j | 0 <= j < |f|
        ensures p(f[j])
      {
        if j >= |xss[0]| {
          assert f[j] == Flatten(xss[1..])[j - |xss[0]|];
        }
      }
    }
  }
}

=== FILE: merge.dfy ===
/** Column-wise merge of the per-transformer word blocks.

    Both classifiers collect one block per fitted transformer and join them
    side by side (`np.concatenate(blocks, axis=1)`, or scipy's `hstack` for
    sparse blocks) into the single matrix the ridge classifier sees. The
    merge reads `blocks[0]` first, so an empty list fails, and numpy refuses
    blocks whose row counts differ.
 */
module FeatureMerge {
  import opened Outcomes
  import opened Shapes

  /** Every block has as many rows as the first one. */
  predicate SameRows(bs: seq<Matrix>) {
    forall k | 0 <= k < |bs| :: |bs[k].rows| == |bs[0].rows|
  }

  /** The summed widths of a block list. */
  function TotalCols(bs: seq<Matrix>): nat {
    if |bs| == 0 then 0 else TotalCols(bs[..|bs| - 1]) + bs[|bs| - 1].cols
  }

  /** The first merged column that belongs to block `k`. */
  function Offset(bs: seq<Matrix>, k: nat): nat
    requires k <= |bs|
  {
    TotalCols(bs[..k])
  }

  /** Two blocks with equal row counts, side by side. */
  function Beside(a: Matrix, b: Matrix): (r: Matrix)
    requires |a.rows| == |b.rows|
    ensures |r.rows| == |a.rows| && r.cols == a.cols + b.cols
    ensures forall i, c | 0 <= i < |a.rows| && 0 <= c < a.cols :: r.rows[i][c] == a.rows[i][c]
    ensures forall i, c | 0 <= i < |a.rows| && 0 <= c < b.cols :: r.rows[i][a.cols + c] == b.rows[i][c]
  {
    Grid(a.cols + b.cols, seq(|a.rows|, i requires 0 <= i < |a.rows| => a.rows[i] + b.rows[i]))
  }

  /** A non-empty list of blocks with equal row counts, joined left to right. */
  function HStack(bs: seq<Matrix>): (r: Matrix)
    requires |bs| > 0 && SameRows(bs)
    ensures |r.rows| == |bs[0].rows|
    ensures r.cols == TotalCols(bs)
    decreases |bs|
  {
    if |bs| == 1 then bs[0]
    else Beside(HStack(bs[..|bs| - 1]), bs[|bs| - 1])
  }

  /** The merge the classifiers perform on their block lists. */
  function Merge(bs: seq<Matrix>): (r: Result<Matrix>)
    ensures r.Success? <==> |bs| > 0 && SameRows(bs)
    ensures r.Failure? ==> r.error == (if |bs| == 0 then EmptyMerge else RowMismatch)
    ensures r.Success? ==> |r.value.rows| == |bs[0].rows| && r.value.cols == TotalCols(bs)
    ensures r.Success? ==> forall k | 0 <= k < |bs| :: Offset(bs, k) + bs[k].cols <= r.value.cols
    ensures r.Success? ==>
      forall k, i, c | 0 <= k < |bs| && 0 <= i < |bs[k].rows| && 0 <= c < bs[k].cols ::
        r.value.rows[i][Offset(bs, k) + c] == bs[k].rows[i][c]
  {
    if |bs| == 0 then Failure(EmptyMerge)
    else if !SameRows(bs) then Failure(RowMismatch)
    else HStackEntries(bs); Success(HStack(bs))
  }

  lemma {:induction false} OffsetFits(bs: seq<Matrix>, k: nat)
    requires k < |bs|
    ensures Offset(bs, k) + bs[k].cols <= TotalCols(bs)
    decreases |bs|
  {
    if k < |bs| - 1 {
      OffsetFits(bs[..|bs| - 1], k);
      assert bs[..|bs| - 1][..k] == bs[..k];
    } else {
      assert bs[..k] == bs[..|bs| - 1];
    }
  }

  /** Column `c` of block `k` lands at merged column `Offset(bs, k) + c`, row for row. */
  lemma {:induction false} HStackEntry(bs: seq<Matrix>, k: nat, i: nat, c: nat)
    requires |bs| > 0 && SameRows(bs)
    requires k < |bs| && i < |bs[k].rows| && c < bs[k].cols
    ensures Offset(bs, k) + c < HStack(bs).cols
    ensures HStack(bs).rows[i][Offset(bs, k) + c] == bs[k].rows[i][c]
    decreases |bs|
  {
    OffsetFits(bs, k);
    if |bs| > 1 {
      var init := bs[..|bs| - 1];
      assert SameRows(init);
      if k < |bs| - 1 {
        HStackEntry(init, k, i, c);
        assert init[..k] == bs[..k];
      } else {
        assert bs[..k] == init;
      }
    }
  }

  lemma HStackEntries(bs: seq<Matrix>)
    requires |bs| > 0 && SameRows(bs)
    ensures forall k | 0 <= k < |bs| :: Offset(bs, k) + bs[k].cols <= HStack(bs).cols
    ensures forall k, i, c | 0 <= k < |bs| && 0 <= i < |bs[k].rows| && 0 <= c < bs[k].cols ::
      HStack(bs).rows[i][Offset(bs, k) + c] == bs[k].rows[i][c]
  {
    forall k | 0 <= k < |bs|
      ensures Offset(bs, k) + bs[k].cols <= HStack(bs).cols
    {
      OffsetFits(bs, k);
    }
    forall k, i, c | 0 <= k < |bs| && 0 <= i < |bs[k].rows| && 0 <= c < bs[k].cols
      ensures HStack(bs).rows[i][Offset(bs, k) + c] == bs[k].rows[i][c]
    {
      HStackEntry(bs, k, i, c);
    }
  }

  lemma BesideAssociative(a: Matrix, b: Matrix, c: Matrix)
    requires |a.rows| == |b.rows| == |c.rows|
    ensures Beside(Beside(a, b), c) == Beside(a, Beside(b, c))
  {
    var l := Beside(Beside(a, b), c);
    var r := Beside(a, Beside(b, c));
    forall i | 0 <= i < |a.rows|
      ensures l.rows[i] == r.rows[i]
    {
      assert (a.rows[i] + b.rows[i]) + c.rows[i] == a.rows[i] + (b.rows[i] + c.rows[i]);
    }
  }

  lemma {:induction false} HStackAppend(a: seq<Matrix>, b: seq<Matrix>)
    requires |a| > 0 && |b| > 0 && SameRows(a + b)
    ensures SameRows(a) && SameRows(b) && |HStack(a).rows| == |HStack(b).rows|
    ensures HStack(a + b) == Beside(HStack(a), HStack(b))
    decreases |b|
  {
    var ab := a + b;
    assert ab[0] == a[0];
    assert forall k | 0 <= k < |a| :: ab[k] == a[k];
    assert forall k | 0 <= k < |b| :: ab[|a| + k] == b[k];
    assert SameRows(a);
    assert SameRows(b);
    assert ab[..|ab| - 1] == a + b[..|b| - 1];
    if |b| == 1 {
      assert ab[..|ab| - 1] == a;
    } else {
      var b' := b[..|b| - 1];
      assert SameRows(b');
      assert forall k | 0 <= k < |a + b'| :: (a + b')[k] == ab[k];
      HStackAppend(a, b');
      BesideAssociative(HStack(a), HStack(b'), b[|b| - 1]);
    }
  }

  /** Merging a concatenated list equals merging each part and putting the results side by side. */
  lemma MergeAssociative(a: seq<Matrix>, b: seq<Matrix>)
    requires |a| > 0 && |b| > 0 && SameRows(a + b)
    ensures Merge(a).Success? && Merge(b).Success?
    ensures |Merge(a).value.rows| == |Merge(b).value.rows|
    ensures Merge(a + b) == Success(Beside(Merge(a).value, Merge(b).value))
  {
    HStackAppend(a, b);
  }
}

=== FILE: muse.dfy ===
/** MUSE 2.0: the multivariate dictionary classifier (`MUSE_V2`).

    `Fit` follows `_fit`: it optionally appends a first-difference channel
    to every dimension, records the dimension count and `highest_dim_bit`,
    refuses `variance` together with `anova`, clamps and checks the window
    range, and fits one SFA transformer per dimension for every member, all
    of a member's transformers sharing one configuration. The transformers
    are kept as a list of per-member lists; the blocks are flattened
    member-major, dimension-minor, and merged. `TransformWords` applies the
    same augmentation and replays the transformers in the same order.
 */
module Muse {
  import opened Outcomes
  import opened Shapes
  import opened Sampling
  import opened Ensemble
  import opened FeatureMerge
  import opened Differences

  /** The constructor arguments, with `variance` and `anova`, which `__init__`
      sets to `True` and `False` but a caller may overwrite before `fit`. */
  datatype Settings = Settings(
    ensembleSize: int,
    maxFeatureCount: int,
    minWindow: int,
    maxWindow: int,
    binningStrategies: seq<Binning>,
    normOptions: seq<bool>,
    wordLengths: seq<int>,
    useFirstDifferences: bool,
    featureSelection: string,
    randomState: Option<int>,
    variance: bool,
    anova: bool)

  /** The values `__init__` fixes regardless of its arguments. */
  const AlphabetSizes: seq<int> := [2]
  const UseBigrams: bool := false

  /** The augmentation step of both `_fit` and `_transform_words`. */
  function Prepare(useFirstDifferences: bool, x: Panel): (r: Panel)
    ensures r.channels == (if useFirstDifferences then 2 * x.channels else x.channels)
    ensures r.length == x.length && |r.data| == |x.data|
    ensures forall i, c | 0 <= i < |x.data| && 0 <= c < x.channels :: r.data[i][c] == x.data[i][c]
    ensures useFirstDifferences ==>
      forall i, c | 0 <= i < |x.data| && 0 <= c < x.channels ::
        r.data[i][x.channels + c] == DifferenceChannel(x.data[i][c])
  {
    if useFirstDifferences then AddFirstOrderDifferences(x) else x
  }

  function Pow2(k: nat): nat {
    if k == 0 then 1 else 2 * Pow2(k - 1)
  }

  /** `ceil(log2(n))`: the least `k` with `2^k >= n`. */
  function CeilLog2(n: nat): (k: nat)
    requires n >= 1
    ensures Pow2(k) >= n
    ensures k == 0 || Pow2(k - 1) < n
    decreases n
  {
    if n == 1 then 0 else 1 + CeilLog2((n + 1) / 2)
  }

  lemma {:induction false} Pow2Monotone(a: nat, b: nat)
    requires a <= b
    ensures Pow2(a) <= Pow2(b)
    decreases b
  {
    if a < b {
      Pow2Monotone(a, b - 1);
    }
  }

  /** No smaller exponent reaches `n`: `CeilLog2` is the least one that does. */
  lemma {:induction false} CeilLog2Least(n: nat, j: nat)
    requires n >= 1 && Pow2(j) >= n
    ensures CeilLog2(n) <= j
  {
    var k := CeilLog2(n);
    if j < k {
      Pow2Monotone(j, k - 1);
    }
  }

  /** `highest_dim_bit = ceil(log2(n_dims)) + 1`; `math.log2(0)` raises. */
  function HighestDimBit(nDims: nat): (r: Result<int>)
    ensures r.Failure? <==> nDims == 0
    ensures r.Failure? ==> r.error == LogOfZero
    ensures r.Success? ==> r.value >= 1 && Pow2(r.value - 1) >= nDims
    ensures r.Success? ==> r.value == 1 || Pow2(r.value - 2) < nDims
  {
    if nDims == 0 then Failure(LogOfZero) else Success(CeilLog2(nDims) + 1)
  }

  /** `int(a / b)`: Python's `int` of a float quotient truncates toward zero. */
  function TruncDiv(a: int, b: int): (q: int)
    requires b > 0
    ensures a >= 0 ==> q >= 0 && q * b <= a < (q + 1) * b
    ensures a < 0 ==> q <= 0 && (q - 1) * b < a <= q * b
  {
    if a >= 0 then
      DivBounds(a, b);
      a / b
    else
      var q := (-a) / b;
      DivBounds(-a, b);
      assert (-q - 1) * b == -((q + 1) * b) && -q * b == -(q * b);
      -q
  }

  /** Euclidean division of a non-negative dividend brackets it between
      consecutive multiples of the divisor. */
  lemma {:induction false} DivBounds(a: int, b: int)
    requires a >= 0 && b > 0
    ensures a / b >= 0 && a / b * b <= a < (a / b + 1) * b
  {
    var q, r := a / b, a % b;
    assert a == q * b + r && 0 <= r < b;
    assert (q + 1) * b == q * b + b;
  }

  /** `int(max_feature_count / (ensemble_size * n_dims))`: one transformer's share. */
  function FeatureCap(maxFeatureCount: int, ensembleSize: int, nDims: nat): (cap: int)
    requires ensembleSize > 0 && nDims > 0
    ensures maxFeatureCount >= 0 ==>
      cap >= 0 && cap * (ensembleSize * nDims) <= maxFeatureCount < (cap + 1) * (ensembleSize * nDims)
    ensures maxFeatureCount < 0 ==>
      cap <= 0 && (cap - 1) * (ensembleSize * nDims) < maxFeatureCount <= cap * (ensembleSize * nDims)
  {
    TruncDiv(maxFeatureCount, ensembleSize * nDims)
  }

  /** A product of naturals is positive only when both factors are. */
  lemma PositiveFactors(a: nat, b: nat)
    requires a * b > 0
    ensures a > 0 && b > 0
  {
  }

  /** `range(ensemble_size)` is empty for a non-positive size. */
  function MemberCount(ensembleSize: int): (n: nat)
    ensures n == 0 <==> ensembleSize <= 0
    ensures ensembleSize > 0 ==> n == ensembleSize
  {
    if ensembleSize < 0 then 0 else ensembleSize
  }

  /** Member `ind`'s configuration, drawn from its own seeded generator. */
  function MemberConfig(s: Settings, windowSizes: seq<int>, rng: Seed -> Draws, ind: nat): (r: Result<Config>)
    ensures r.Success? <==>
      |windowSizes| > 0 && |s.wordLengths| > 0 && |s.normOptions| > 0 && |s.binningStrategies| > 0
    ensures r.Failure? ==> r.error == EmptyChoice
    ensures r.Success? ==>
      && r.value.windowSize in windowSizes && r.value.norm in s.normOptions
      && r.value.alphabetSize == 2 && r.value.binning in s.binningStrategies
      && r.value.wordLength <= r.value.windowSize - 2
      && r.value.dilation >= 1 && r.value.dilation >= rng(MemberSeed(s.randomState, ind)).dilation
  {
    SampleConfig(windowSizes, AlphabetSizes, s.wordLengths, s.normOptions, s.binningStrategies,
                 rng(MemberSeed(s.randomState, ind)))
  }

  /** Member `ind`'s configuration depends only on what its own seed draws. */
  lemma MemberConfigOwnDraws(s: Settings, windowSizes: seq<int>, rng: Seed -> Draws, rng': Seed -> Draws, ind: nat)
    requires rng(MemberSeed(s.randomState, ind)) == rng'(MemberSeed(s.randomState, ind))
    ensures MemberConfig(s, windowSizes, rng, ind) == MemberConfig(s, windowSizes, rng', ind)
  {
  }

  /** The SFA parameters of one dimension's transformer: first differences
      off (`rng.choice([False])`) and the cap
      `int(max_feature_count / (ensemble_size * n_dims))`. */
  function SfaParamsFor(s: Settings, config: Config, ind: nat, nDims: nat): (p: SfaParams)
    requires s.ensembleSize > 0 && nDims > 0
    ensures p.config == config && !p.firstDifference && p.randomState == ind
    ensures p.maxFeatureCount == FeatureCap(s.maxFeatureCount, s.ensembleSize, nDims)
    ensures p.variance == s.variance && p.anova == s.anova && p.bigrams == UseBigrams
    ensures p.featureSelection == s.featureSelection
  {
    SfaParams(config, false, FeatureCap(s.maxFeatureCount, s.ensembleSize, nDims), ind,
              s.variance, s.anova, UseBigrams, s.featureSelection)
  }

  /** What `_parallel_fit` returns: one block and one transformer per dimension. */
  datatype Member<Tr> = Member(words: seq<Matrix>, transformers: seq<Fitted<Tr>>)

  /** `_parallel_fit`: one configuration, then one SFA fit per dimension. */
  function FitMember<Tr>(
    s: Settings, ind: nat, xa: Panel, y: seq<Label>, windowSizes: seq<int>,
    rng: Seed -> Draws, sfa: Sfa<Tr>): (r: Result<Member<Tr>>)
    requires ind < s.ensembleSize
    ensures r.Success? <==> MemberConfig(s, windowSizes, rng, ind).Success?
    ensures r.Failure? ==> r.error == EmptyChoice
    ensures r.Success? ==>
      && |r.value.words| == xa.channels
      && |r.value.transformers| == xa.channels
      && forall d | 0 <= d < xa.channels ::
           && r.value.transformers[d].params
              == SfaParamsFor(s, MemberConfig(s, windowSizes, rng, ind).value, ind, xa.channels)
           && r.value.words[d].cols == r.value.transformers[d].width
           && (r.value.words[d], r.value.transformers[d].state)
              == sfa.fit(r.value.transformers[d].params, Channel(xa, d), y)
  {
    var config :- MemberConfig(s, windowSizes, rng, ind);
    var fits := seq(xa.channels, d requires 0 <= d < xa.channels =>
      FitTransform(sfa, SfaParamsFor(s, config, ind, xa.channels), Channel(xa, d), y));
    Success(Member(seq(|fits|, d requires 0 <= d < |fits| => fits[d].0),
                   seq(|fits|, d requires 0 <= d < |fits| => fits[d].1)))
  }

  /** The parallel map over members, in member order. It fails exactly when
      there is a member and a candidate list is empty. */
  function FitMembers<Tr>(
    s: Settings, xa: Panel, y: seq<Label>, windowSizes: seq<int>,
    rng: Seed -> Draws, sfa: Sfa<Tr>): (r: Result<seq<Member<Tr>>>)
    ensures r.Success? <==>
      s.ensembleSize <= 0
      || (|windowSizes| > 0 && |s.wordLengths| > 0 && |s.normOptions| > 0 && |s.binningStrategies| > 0)
    ensures r.Failure? ==> r.error == EmptyChoice
    ensures r.Success? ==> |r.value| == MemberCount(s.ensembleSize)
    ensures r.Success? ==>
      forall i | 0 <= i < |r.value| :: i < s.ensembleSize && r.value[i] == FitMember(s, i, xa, y, windowSizes, rng, sfa).value
  {
    var n := MemberCount(s.ensembleSize);
    CollectAll(seq(n, ind requires 0 <= ind < n => FitMember(s, ind, xa, y, windowSizes, rng, sfa)))
  }

  /** `all_words.extend(sfa_words)` over the members. */
  function AllWords<Tr>(members: seq<Member<Tr>>): seq<Matrix> {
    Flatten(seq(|members|, i requires 0 <= i < |members| => members[i].words))
  }

  /** `SFA_transformers.append(transformer)`: one list per member. */
  function TransformerLists<Tr>(members: seq<Member<Tr>>): seq<seq<Fitted<Tr>>> {
    seq(|members|, i requires 0 <= i < |members| => members[i].transformers)
  }

  /** A fitted MUSE 2.0 model, with the matrix the ridge classifier is trained on. */
  datatype Model<Tr> = Model(
    settings: Settings,
    nDims: nat,
    highestDimBit: int,
    seriesLength: nat,
    maxWindow: int,
    windowSizes: seq<int>,
    transformers: seq<seq<Fitted<Tr>>>,
    trainWords: Matrix,
    totalFeatures: nat)

  /** `_fit`, up to the ridge classifier. */
  function Fit<Tr>(s: Settings, x: Panel, y: seq<Label>, rng: Seed -> Draws, sfa: Sfa<Tr>): (r: Result<Model<Tr>>)
    ensures x.channels == 0 ==> r == Failure(LogOfZero)
    ensures x.channels > 0 && s.variance && s.anova ==> r == Failure(VarianceAndAnova)
    ensures x.channels > 0 && !(s.variance && s.anova) ==>
      ((r.Failure? && r.error.WindowRange?) <==> s.minWindow > x.length || s.minWindow > s.maxWindow)
    ensures r.Success? ==>
      && r.value.settings == s
      && r.value.nDims == (if s.useFirstDifferences then 2 * x.channels else x.channels)
      && r.value.seriesLength == x.length
      && r.value.highestDimBit >= 1 && Pow2(r.value.highestDimBit - 1) >= r.value.nDims
      && (r.value.highestDimBit == 1 || Pow2(r.value.highestDimBit - 2) < r.value.nDims)
      && HighestDimBit(r.value.nDims) == Success(r.value.highestDimBit)
    ensures r.Success? ==>
      && r.value.maxWindow <= x.length && r.value.maxWindow <= s.maxWindow
      && (r.value.maxWindow == x.length || r.value.maxWindow == s.maxWindow)
      && |r.value.windowSizes| == r.value.maxWindow - s.minWindow + 1
      && (forall k | 0 <= k < |r.value.windowSizes| :: r.value.windowSizes[k] == s.minWindow + k)
      && r.value.totalFeatures == r.value.trainWords.cols
  {
    var xa := Prepare(s.useFirstDifferences, x);
    var bit :- HighestDimBit(xa.channels);
    if s.variance && s.anova then Failure(VarianceAndAnova)
    else FitPrepared(s, xa, bit, y, rng, sfa)
  }

  /** `_fit` from the window range on, once the series are augmented and the
      dimension checks have passed. */
  function FitPrepared<Tr>(s: Settings, xa: Panel, bit: int, y: seq<Label>, rng: Seed -> Draws, sfa: Sfa<Tr>): (r: Result<Model<Tr>>)
    ensures (r.Failure? && r.error.WindowRange?) <==> s.minWindow > xa.length || s.minWindow > s.maxWindow
    ensures r.Success? ==>
      && r.value.settings == s && r.value.nDims == xa.channels
      && r.value.highestDimBit == bit && r.value.seriesLength == xa.length
    ensures r.Success? ==>
      && r.value.maxWindow <= xa.length && r.value.maxWindow <= s.maxWindow
      && (r.value.maxWindow == xa.length || r.value.maxWindow == s.maxWindow)
      && |r.value.windowSizes| == r.value.maxWindow - s.minWindow + 1
      && (forall k | 0 <= k < |r.value.windowSizes| :: r.value.windowSizes[k] == s.minWindow + k)
      && r.value.totalFeatures == r.value.trainWords.cols
  {
    var maxWindow :- BoundWindow(s.minWindow, s.maxWindow, xa.length);
    var windowSizes := Range(s.minWindow, maxWindow);
    var members :- FitMembers(s, xa, y, windowSizes, rng, sfa);
    var words :- Merge(AllWords(members));
    Success(Model(s, xa.channels, bit, xa.length, maxWindow, windowSizes,
                  TransformerLists(members), words, words.cols))
  }

  /** A successful fit, taken apart into the steps of `_fit`. */
  lemma FitSteps<Tr>(s: Settings, x: Panel, y: seq<Label>, rng: Seed -> Draws, sfa: Sfa<Tr>, m: Model<Tr>)
    requires Fit(s, x, y, rng, sfa) == Success(m)
    ensures m.nDims == Prepare(s.useFirstDifferences, x).channels
    ensures BoundWindow(s.minWindow, s.maxWindow, x.length) == Success(m.maxWindow)
    ensures m.windowSizes == Range(s.minWindow, m.maxWindow)
    ensures FitMembers(s, Prepare(s.useFirstDifferences, x), y, m.windowSizes, rng, sfa).Success?
    ensures var members := FitMembers(s, Prepare(s.useFirstDifferences, x), y, m.windowSizes, rng, sfa).value;
      && m.transformers == TransformerLists(members)
      && Merge(AllWords(members)) == Success(m.trainWords)
  {
  }

  /** Every member holds one block and one transformer per dimension, of matching widths. */
  lemma MembersShape<Tr>(s: Settings, xa: Panel, y: seq<Label>, windowSizes: seq<int>, rng: Seed -> Draws, sfa: Sfa<Tr>)
    requires FitMembers(s, xa, y, windowSizes, rng, sfa).Success?
    ensures var members := FitMembers(s, xa, y, windowSizes, rng, sfa).value;
      forall i | 0 <= i < |members| ::
        && |members[i].words| == xa.channels
        && |members[i].transformers| == xa.channels
        && forall d | 0 <= d < xa.channels ::
             && members[i].words[d].cols == members[i].transformers[d].width
             && (members[i].words[d], members[i].transformers[d].state)
                == sfa.fit(members[i].transformers[d].params, Channel(xa, d), y)
  {
    var members := FitMembers(s, xa, y, windowSizes, rng, sfa).value;
    forall i | 0 <= i < |members|
      ensures |members[i].words| == xa.channels && |members[i].transformers| == xa.channels
      ensures forall d | 0 <= d < xa.channels ::
        && members[i].words[d].cols == members[i].transformers[d].width
        && (members[i].words[d], members[i].transformers[d].state)
           == sfa.fit(members[i].transformers[d].params, Channel(xa, d), y)
    {
      assert members[i] == FitMember(s, i, xa, y, windowSizes, rng, sfa).value;
    }
  }

  /** Transformer `d` of member `i` was built from member `i`'s configuration. */
  lemma MembersLayout<Tr>(
    s: Settings, xa: Panel, y: seq<Label>, windowSizes: seq<int>, rng: Seed -> Draws, sfa: Sfa<Tr>, i: nat, d: nat)
    requires FitMembers(s, xa, y, windowSizes, rng, sfa).Success?
    requires i < |FitMembers(s, xa, y, windowSizes, rng, sfa).value| && d < xa.channels
    ensures s.ensembleSize > 0 && MemberConfig(s, windowSizes, rng, i).Success?
    ensures var members := FitMembers(s, xa, y, windowSizes, rng, sfa).value;
      && d < |members[i].transformers|
      && members[i].transformers[d].params == SfaParamsFor(s, MemberConfig(s, windowSizes, rng, i).value, i, xa.channels)
  {
    var members := FitMembers(s, xa, y, windowSizes, rng, sfa).value;
    assert members[i] == FitMember(s, i, xa, y, windowSizes, rng, sfa).value;
  }

  /** A fit keeps one list per member (`append`), each with one transformer
      per dimension counted after augmentation. */
  lemma FitShape<Tr>(s: Settings, x: Panel, y: seq<Label>, rng: Seed -> Draws, sfa: Sfa<Tr>, m: Model<Tr>)
    requires Fit(s, x, y, rng, sfa) == Success(m)
    ensures s.ensembleSize > 0 && m.nDims > 0
    ensures |m.transformers| == s.ensembleSize
    ensures forall i | 0 <= i < |m.transformers| :: |m.transformers[i]| == m.nDims
  {
    FitSteps(s, x, y, rng, sfa, m);
    MembersMerged(s, Prepare(s.useFirstDifferences, x), y, m.windowSizes, rng, sfa);
  }

  /** Members whose words merge are at least one, each with one transformer per dimension. */
  lemma MembersMerged<Tr>(s: Settings, xa: Panel, y: seq<Label>, windowSizes: seq<int>, rng: Seed -> Draws, sfa: Sfa<Tr>)
    requires FitMembers(s, xa, y, windowSizes, rng, sfa).Success?
    requires Merge(AllWords(FitMembers(s, xa, y, windowSizes, rng, sfa).value)).Success?
    ensures s.ensembleSize > 0 && xa.channels > 0
    ensures var ts := TransformerLists(FitMembers(s, xa, y, windowSizes, rng, sfa).value);
      && |ts| == s.ensembleSize
      && forall i | 0 <= i < |ts| :: |ts[i]| == xa.channels
  {
    var members := FitMembers(s, xa, y, windowSizes, rng, sfa).value;
    MembersShape(s, xa, y, windowSizes, rng, sfa);
    var wss := seq(|members|, i requires 0 <= i < |members| => members[i].words);
    FlattenLength(wss, xa.channels);
    PositiveFactors(|members|, xa.channels);
  }

  /** All of member `i`'s transformers share its one configuration; each gets
      first differences off, seed `i` and the cap
      `int(max_feature_count / (ensemble_size * n_dims))`. */
  lemma FitLayout<Tr>(s: Settings, x: Panel, y: seq<Label>, rng: Seed -> Draws, sfa: Sfa<Tr>, m: Model<Tr>, i: nat, d: nat)
    requires Fit(s, x, y, rng, sfa) == Success(m)
    requires i < |m.transformers| && d < |m.transformers[i]|
    ensures s.ensembleSize > 0 && m.nDims > 0
    ensures MemberConfig(s, m.windowSizes, rng, i).Success?
    ensures m.transformers[i][d].params == SfaParamsFor(s, MemberConfig(s, m.windowSizes, rng, i).value, i, m.nDims)
  {
    FitSteps(s, x, y, rng, sfa, m);
    FitShape(s, x, y, rng, sfa, m);
    var xa := Prepare(s.useFirstDifferences, x);
    var members := FitMembers(s, xa, y, m.windowSizes, rng, sfa).value;
    MembersLayout(s, xa, y, m.windowSizes, rng, sfa, i, d);
    assert m.transformers[i] == members[i].transformers;
  }

  /** Member `i`'s block for dimension `d` sits at `i * n_dims + d` of the
      flattened words, and it and the member's transformer `d` are exactly
      what the SFA fit with that transformer's parameters on `X[:, d]` returned. */
  lemma MembersProvenance<Tr>(
    s: Settings, xa: Panel, y: seq<Label>, windowSizes: seq<int>, rng: Seed -> Draws, sfa: Sfa<Tr>, i: nat, d: nat)
    requires FitMembers(s, xa, y, windowSizes, rng, sfa).Success?
    requires i < |FitMembers(s, xa, y, windowSizes, rng, sfa).value| && d < xa.channels
    ensures var members := FitMembers(s, xa, y, windowSizes, rng, sfa).value;
      && Slot(i, xa.channels, d) < |AllWords(members)| && d < |members[i].transformers|
      && (AllWords(members)[Slot(i, xa.channels, d)], members[i].transformers[d].state)
         == sfa.fit(members[i].transformers[d].params, Channel(xa, d), y)
  {
    var members := FitMembers(s, xa, y, windowSizes, rng, sfa).value;
    MembersShape(s, xa, y, windowSizes, rng, sfa);
    var wss := seq(|members|, q requires 0 <= q < |members| => members[q].words);
    assert members[i] == FitMember(s, i, xa, y, windowSizes, rng, sfa).value;
    FlattenAt(wss, xa.channels, i, d);
  }

  /** In the merged words of members holding `n` blocks and `n` matching
      transformers each, block `d` of member `i` fills the columns from
      `SumWidths` of the flattened transformers before it on, row for row. */
  lemma WordsColumns<Tr>(members: seq<Member<Tr>>, n: nat, g: Matrix, i: nat, d: nat)
    requires forall q | 0 <= q < |members| ::
      && |members[q].words| == n && |members[q].transformers| == n
      && forall e | 0 <= e < n :: members[q].words[e].cols == members[q].transformers[e].width
    requires Merge(AllWords(members)) == Success(g)
    requires i < |members| && d < n
    ensures var ts := Flatten(TransformerLists(members));
      && Slot(i, n, d) < |ts| && ts[Slot(i, n, d)] == members[i].transformers[d]
      && |members[i].words[d].rows| == |g.rows|
      && SumWidths(ts[..Slot(i, n, d)]) + members[i].words[d].cols <= g.cols
      && forall row, c | 0 <= row < |members[i].words[d].rows| && 0 <= c < members[i].words[d].cols ::
           g.rows[row][SumWidths(ts[..Slot(i, n, d)]) + c] == members[i].words[d].rows[row][c]
  {
    var wss: seq<seq<Matrix>> := seq(|members|, q requires 0 <= q < |members| => members[q].words);
    BlockColumns(wss, TransformerLists(members), n, g, i, d);
  }

  /** The flattened words are as wide as the flattened transformers' fit-time widths. */
  lemma MembersCounts<Tr>(s: Settings, xa: Panel, y: seq<Label>, windowSizes: seq<int>, rng: Seed -> Draws, sfa: Sfa<Tr>)
    requires FitMembers(s, xa, y, windowSizes, rng, sfa).Success?
    ensures var members := FitMembers(s, xa, y, windowSizes, rng, sfa).value;
      && |Flatten(TransformerLists(members))| == |members| * xa.channels
      && TotalCols(AllWords(members)) == SumWidths(Flatten(TransformerLists(members)))
  {
    var members := FitMembers(s, xa, y, windowSizes, rng, sfa).value;
    MembersShape(s, xa, y, windowSizes, rng, sfa);
    var wss := seq(|members|, j requires 0 <= j < |members| => members[j].words);
    var tss := TransformerLists(members);
    FlattenLength(tss, xa.channels);
    FlattenWidths(wss, tss);
    TotalColsMatchesWidths(Flatten(wss), Flatten(tss));
  }

  /** A fit holds `ensemble_size * n_dims` transformers, and its feature count
      is the sum of their fit-time block widths. */
  lemma FitCounts<Tr>(s: Settings, x: Panel, y: seq<Label>, rng: Seed -> Draws, sfa: Sfa<Tr>, m: Model<Tr>)
    requires Fit(s, x, y, rng, sfa) == Success(m)
    ensures |Flatten(m.transformers)| == s.ensembleSize * m.nDims
    ensures m.totalFeatures == SumWidths(Flatten(m.transformers))
  {
    FitSteps(s, x, y, rng, sfa, m);
    FitShape(s, x, y, rng, sfa, m);
    MembersCounts(s, Prepare(s.useFirstDifferences, x), y, m.windowSizes, rng, sfa);
  }

  /** Every transformer of every member carries the same truncated cap. */
  lemma MembersCaps<Tr>(s: Settings, xa: Panel, y: seq<Label>, windowSizes: seq<int>, rng: Seed -> Draws, sfa: Sfa<Tr>)
    requires FitMembers(s, xa, y, windowSizes, rng, sfa).Success?
    requires s.ensembleSize > 0 && xa.channels > 0
    ensures var ts := Flatten(TransformerLists(FitMembers(s, xa, y, windowSizes, rng, sfa).value));
      forall j | 0 <= j < |ts| :: ts[j].params.maxFeatureCount == FeatureCap(s.maxFeatureCount, s.ensembleSize, xa.channels)
  {
    var members := FitMembers(s, xa, y, windowSizes, rng, sfa).value;
    var tss: seq<seq<Fitted<Tr>>> := TransformerLists(members);
    var cap := FeatureCap(s.maxFeatureCount, s.ensembleSize, xa.channels);
    forall i, d | 0 <= i < |tss| && 0 <= d < |tss[i]|
      ensures tss[i][d].params.maxFeatureCount == cap
    {
      MembersShape(s, xa, y, windowSizes, rng, sfa);
      MembersLayout(s, xa, y, windowSizes, rng, sfa, i, d);
    }
    FlattenAll(tss, (t: Fitted<Tr>) => t.params.maxFeatureCount == cap);
  }

  /** The caps split `max_feature_count` over `ensemble_size * n_dims`
      transformers, so together they never exceed it. */
  lemma FitBudget<Tr>(s: Settings, x: Panel, y: seq<Label>, rng: Seed -> Draws, sfa: Sfa<Tr>, m: Model<Tr>)
    requires Fit(s, x, y, rng, sfa) == Success(m)
    ensures s.ensembleSize > 0 && m.nDims > 0
    ensures forall j | 0 <= j < |Flatten(m.transformers)| ::
      Flatten(m.transformers)[j].params.maxFeatureCount == FeatureCap(s.maxFeatureCount, s.ensembleSize, m.nDims)
    ensures s.maxFeatureCount >= 0 ==> SumCaps(Flatten(m.transformers)) <= s.maxFeatureCount
  {
    FitSteps(s, x, y, rng, sfa, m);
    FitShape(s, x, y, rng, sfa, m);
    FitCounts(s, x, y, rng, sfa, m);
    MembersCaps(s, Prepare(s.useFirstDifferences, x), y, m.windowSizes, rng, sfa);
    var n := s.ensembleSize * m.nDims;
    var cap := FeatureCap(s.maxFeatureCount, s.ensembleSize, m.nDims);
    SumCapsUniform(Flatten(m.transformers), cap);
    assert cap == TruncDiv(s.maxFeatureCount, n);
    if s.maxFeatureCount >= 0 {
      assert cap * n <= s.maxFeatureCount;
    }
  }

  /** Fit-time provenance of transformer `d` of member `i`: it sits at
      `i * n_dims + d` of the flattened list, keeps the state of the SFA fit
      with its parameters on dimension `d` of `xa` and `y`, and the block that
      fit returned fills the training matrix, column for column, from
      `SumWidths` of the flattened transformers before it on. */
  ghost predicate FittedOn<Tr>(m: Model<Tr>, xa: Panel, y: seq<Label>, sfa: Sfa<Tr>, i: nat, d: nat)
    requires i < |m.transformers| && d < |m.transformers[i]|
  {
    && m.nDims > 0 && d < xa.channels
    && Slot(i, m.nDims, d) < |Flatten(m.transformers)|
    && Flatten(m.transformers)[Slot(i, m.nDims, d)] == m.transformers[i][d]
    && var fitted := sfa.fit(m.transformers[i][d].params, Channel(xa, d), y);
       && m.transformers[i][d].state == fitted.1
       && m.transformers[i][d].width == fitted.0.cols
       && |fitted.0.rows| == |m.trainWords.rows|
       && SumWidths(Flatten(m.transformers)[..Slot(i, m.nDims, d)]) + fitted.0.cols <= m.trainWords.cols
       && forall row, c | 0 <= row < |fitted.0.rows| && 0 <= c < fitted.0.cols ::
            m.trainWords.rows[row][SumWidths(Flatten(m.transformers)[..Slot(i, m.nDims, d)]) + c]
            == fitted.0.rows[row][c]
  }

  /** Every transformer of a successful fit was fitted on its own dimension of
      the augmented training series, and its fit-time block is where
      `FittedOn` says in the training matrix. */
  lemma FitProvenance<Tr>(s: Settings, x: Panel, y: seq<Label>, rng: Seed -> Draws, sfa: Sfa<Tr>, m: Model<Tr>, i: nat, d: nat)
    requires Fit(s, x, y, rng, sfa) == Success(m)
    requires i < |m.transformers| && d < |m.transformers[i]|
    ensures FittedOn(m, Prepare(s.useFirstDifferences, x), y, sfa, i, d)
  {
    var members := FitParts(s, x, y, rng, sfa, m);
    ModelProvenance(m, members, Prepare(s.useFirstDifferences, x), y, sfa, i, d);
  }

  /** The members behind a successful fit, with what each one fitted. */
  lemma FitParts<Tr>(s: Settings, x: Panel, y: seq<Label>, rng: Seed -> Draws, sfa: Sfa<Tr>, m: Model<Tr>)
    returns (members: seq<Member<Tr>>)
    requires Fit(s, x, y, rng, sfa) == Success(m)
    ensures Assembled(m, members, Prepare(s.useFirstDifferences, x), y, sfa)
  {
    FitSteps(s, x, y, rng, sfa, m);
    var xa := Prepare(s.useFirstDifferences, x);
    members := FitMembers(s, xa, y, m.windowSizes, rng, sfa).value;
    MembersShape(s, xa, y, m.windowSizes, rng, sfa);
  }

  /** A model whose transformers and training matrix were assembled from
      `members`, each holding one SFA fit per dimension of `xa`. */
  ghost predicate Assembled<Tr>(m: Model<Tr>, members: seq<Member<Tr>>, xa: Panel, y: seq<Label>, sfa: Sfa<Tr>) {
    && m.transformers == TransformerLists(members)
    && Merge(AllWords(members)) == Success(m.trainWords)
    && m.nDims == xa.channels
    && forall q | 0 <= q < |members| ::
         && |members[q].words| == xa.channels && |members[q].transformers| == xa.channels
         && forall e | 0 <= e < xa.channels ::
              && members[q].words[e].cols == members[q].transformers[e].width
              && (members[q].words[e], members[q].transformers[e].state)
                 == sfa.fit(members[q].transformers[e].params, Channel(xa, e), y)
  }

  /** `FitProvenance` for a model assembled from members whose blocks and
      transformers came from SFA fits on the dimensions of `xa`. */
  lemma ModelProvenance<Tr>(m: Model<Tr>, members: seq<Member<Tr>>, xa: Panel, y: seq<Label>, sfa: Sfa<Tr>, i: nat, d: nat)
    requires Assembled(m, members, xa, y, sfa)
    requires i < |m.transformers| && d < |m.transformers[i]|
    ensures FittedOn(m, xa, y, sfa, i, d)
  {
    assert m.transformers[i] == members[i].transformers;
    WordsColumns(members, xa.channels, m.trainWords, i, d);
  }

  /** When the SFA returns one row per instance, the member words are
      `ensemble_size * n_dims` blocks that all have one row per instance. */
  lemma MembersRows<Tr>(s: Settings, xa: Panel, y: seq<Label>, windowSizes: seq<int>, rng: Seed -> Draws, sfa: Sfa<Tr>)
    requires FitMembers(s, xa, y, windowSizes, rng, sfa).Success?
    requires RowPreserving(sfa, y)
    ensures var bs := AllWords(FitMembers(s, xa, y, windowSizes, rng, sfa).value);
      && |bs| == MemberCount(s.ensembleSize) * xa.channels
      && forall j | 0 <= j < |bs| :: |bs[j].rows| == |xa.data|
  {
    var members := FitMembers(s, xa, y, windowSizes, rng, sfa).value;
    var wss: seq<seq<Matrix>> := seq(|members|, q requires 0 <= q < |members| => members[q].words);
    var n := |xa.data|;
    forall q, e | 0 <= q < |wss| && 0 <= e < |wss[q]|
      ensures |wss[q][e].rows| == n
    {
      assert members[q] == FitMember(s, q, xa, y, windowSizes, rng, sfa).value;
    }
    FlattenAll(wss, (b: Matrix) => |b.rows| == n);
    MembersShape(s, xa, y, windowSizes, rng, sfa);
    FlattenLength(wss, xa.channels);
  }

  /** A fit succeeds on a series with at least one dimension whose window range
      is nonempty and starts at 2 or more, with member seeds numpy accepts,
      when `variance` and `anova` are not both set, the ensemble has a member,
      the candidate lists are nonempty and the SFA returns one row per
      instance. (A window of at most 1 makes the dilation draw raise, and so does a
      seed outside numpy's range.) */
  lemma FitSucceeds<Tr>(s: Settings, x: Panel, y: seq<Label>, rng: Seed -> Draws, sfa: Sfa<Tr>)
    requires x.channels > 0 && !(s.variance && s.anova)
    requires 2 <= s.minWindow <= x.length && s.minWindow <= s.maxWindow
    requires SeedsAccepted(s.randomState, s.ensembleSize)
    requires s.ensembleSize > 0 && |s.wordLengths| > 0 && |s.normOptions| > 0 && |s.binningStrategies| > 0
    requires RowPreserving(sfa, y)
    ensures Fit(s, x, y, rng, sfa).Success?
  {
    var xa := Prepare(s.useFirstDifferences, x);
    var maxWindow := BoundWindow(s.minWindow, s.maxWindow, xa.length).value;
    var windowSizes := Range(s.minWindow, maxWindow);
    assert windowSizes[0] == s.minWindow;
    MembersRows(s, xa, y, windowSizes, rng, sfa);
    var bs := AllWords(FitMembers(s, xa, y, windowSizes, rng, sfa).value);
    assert s.ensembleSize * xa.channels > 0;
    assert SameRows(bs);
  }

  /** With no members (`range(ensemble_size)` empty) there are no blocks to merge. */
  lemma NoMembersFails<Tr>(s: Settings, x: Panel, y: seq<Label>, rng: Seed -> Draws, sfa: Sfa<Tr>)
    requires s.ensembleSize <= 0 && x.channels > 0 && !(s.variance && s.anova)
    requires s.minWindow <= x.length && s.minWindow <= s.maxWindow
    ensures Fit(s, x, y, rng, sfa) == Failure(EmptyMerge)
  {
    var xa := Prepare(s.useFirstDifferences, x);
    var maxWindow := BoundWindow(s.minWindow, s.maxWindow, xa.length).value;
    var members := FitMembers(s, xa, y, Range(s.minWindow, maxWindow), rng, sfa);
    assert members == Success([]);
  }

  /** `_parallel_transform_words`: each dimension of the new series through
      the member's transformer for that dimension. A series with more
      dimensions than the member holds transformers for indexes past the list. */
  function ReplayMember<Tr>(ts: seq<Fitted<Tr>>, xa: Panel, sfa: Sfa<Tr>): (r: Result<seq<Matrix>>)
    ensures r.Failure? <==> xa.channels > |ts|
    ensures r.Failure? ==> r.error == DimensionOutOfRange(|ts|, |ts|)
    ensures r.Success? ==>
      |r.value| == xa.channels && forall d | 0 <= d < xa.channels :: r.value[d] == Replay(sfa, ts[d], Channel(xa, d))
  {
    if xa.channels > |ts| then Failure(DimensionOutOfRange(|ts|, |ts|))
    else Success(seq(xa.channels, d requires 0 <= d < xa.channels => Replay(sfa, ts[d], Channel(xa, d))))
  }

  /** The parallel map over members at inference, flattened in member order:
      it fails exactly when some member has fewer transformers than the series
      has dimensions, and otherwise yields one block per member and dimension. */
  function ReplayAll<Tr>(m: Model<Tr>, xa: Panel, sfa: Sfa<Tr>): (r: Result<seq<Matrix>>)
    ensures r.Success? <==> forall i | 0 <= i < |m.transformers| :: xa.channels <= |m.transformers[i]|
    ensures r.Failure? ==> r.error.DimensionOutOfRange?
    ensures r.Success? ==> |r.value| == |m.transformers| * xa.channels
  {
    var rs := seq(|m.transformers|, ind requires 0 <= ind < |m.transformers| =>
      ReplayMember(m.transformers[ind], xa, sfa));
    assert forall i | 0 <= i < |rs| :: rs[i] == ReplayMember(m.transformers[i], xa, sfa);
    var lists :- CollectAll(rs);
    FlattenLength(lists, xa.channels);
    Success(Flatten(lists))
  }

  /** `_transform_words`: the fit-time augmentation, then every member's
      transformers replayed and merged in fit order. A member too short for the
      series' dimensions raises the IndexError; otherwise the merge needs at
      least one block and equal row counts, and spans all replayed blocks. */
  function TransformWords<Tr>(m: Model<Tr>, x: Panel, sfa: Sfa<Tr>): (r: Result<Matrix>)
    ensures var blocks := ReplayAll(m, Prepare(m.settings.useFirstDifferences, x), sfa);
      && ((r.Failure? && r.error.DimensionOutOfRange?) <==> blocks.Failure?)
      && (r.Success? <==>
            && blocks.Success? && |m.transformers| > 0
            && Prepare(m.settings.useFirstDifferences, x).channels > 0 && SameRows(blocks.value))
      && (r.Success? ==> r.value.cols == TotalCols(blocks.value))
  {
    var xa := Prepare(m.settings.useFirstDifferences, x);
    var blocks :- ReplayAll(m, xa, sfa);
    assert |m.transformers| == 0 || xa.channels == 0 ==> |m.transformers| * xa.channels == 0;
    assert |m.transformers| > 0 && xa.channels > 0 ==> |m.transformers| * xa.channels > 0;
    Merge(blocks)
  }

  /** The replayed block lists of a model whose members each hold `width`
      transformers, on series with at most that many dimensions. */
  lemma ReplayLayout<Tr>(m: Model<Tr>, xa: Panel, sfa: Sfa<Tr>, width: nat)
    requires forall i | 0 <= i < |m.transformers| :: |m.transformers[i]| == width
    requires xa.channels <= width
    ensures ReplayAll(m, xa, sfa).Success?
    ensures |ReplayAll(m, xa, sfa).value| == |m.transformers| * xa.channels
    ensures forall i, d | 0 <= i < |m.transformers| && 0 <= d < xa.channels ::
      && Slot(i, xa.channels, d) < |ReplayAll(m, xa, sfa).value|
      && ReplayAll(m, xa, sfa).value[Slot(i, xa.channels, d)] == Replay(sfa, m.transformers[i][d], Channel(xa, d))
  {
    var rs := seq(|m.transformers|, ind requires 0 <= ind < |m.transformers| => ReplayMember(m.transformers[ind], xa, sfa));
    var lists := CollectAll(rs).value;
    FlattenLength(lists, xa.channels);
    forall i, d | 0 <= i < |m.transformers| && 0 <= d < xa.channels
      ensures Slot(i, xa.channels, d) < |Flatten(lists)|
      ensures Flatten(lists)[Slot(i, xa.channels, d)] == Replay(sfa, m.transformers[i][d], Channel(xa, d))
    {
      FlattenAt(lists, xa.channels, i, d);
    }
  }

  /** Inference replays transformer `d` of member `i` on dimension `d` of the
      augmented series, at the position `i * n_dims + d` the fit gave its
      block, whenever the series has no more dimensions than were fitted. */
  lemma TransformOrder<Tr>(s: Settings, x: Panel, y: seq<Label>, rng: Seed -> Draws, sfa: Sfa<Tr>, m: Model<Tr>, x2: Panel)
    requires Fit(s, x, y, rng, sfa) == Success(m)
    requires Prepare(s.useFirstDifferences, x2).channels <= m.nDims
    ensures forall i | 0 <= i < |m.transformers| :: |m.transformers[i]| == m.nDims
    ensures var xa := Prepare(s.useFirstDifferences, x2);
      && ReplayAll(m, xa, sfa).Success?
      && |ReplayAll(m, xa, sfa).value| == s.ensembleSize * xa.channels
      && forall i, d | 0 <= i < |m.transformers| && 0 <= d < xa.channels ::
           && Slot(i, xa.channels, d) < |ReplayAll(m, xa, sfa).value|
           && ReplayAll(m, xa, sfa).value[Slot(i, xa.channels, d)] == Replay(sfa, m.transformers[i][d], Channel(xa, d))
    ensures TransformWords(m, x2, sfa) == Merge(ReplayAll(m, Prepare(s.useFirstDifferences, x2), sfa).value)
  {
    FitShape(s, x, y, rng, sfa, m);
    ReplayLayout(m, Prepare(s.useFirstDifferences, x2), sfa, m.nDims);
  }

  /** A new series with more dimensions than the fit saw (after augmentation)
      makes the first member index past its transformer list. */
  lemma TransformRejectsExtraDims<Tr>(s: Settings, x: Panel, y: seq<Label>, rng: Seed -> Draws, sfa: Sfa<Tr>, m: Model<Tr>, x2: Panel)
    requires Fit(s, x, y, rng, sfa) == Success(m)
    requires Prepare(s.useFirstDifferences, x2).channels > m.nDims
    ensures TransformWords(m, x2, sfa) == Failure(DimensionOutOfRange(m.nDims, m.nDims))
  {
    FitShape(s, x, y, rng, sfa, m);
    var xa := Prepare(s.useFirstDifferences, x2);
    var rs := seq(|m.transformers|, ind requires 0 <= ind < |m.transformers| => ReplayMember(m.transformers[ind], xa, sfa));
    assert rs[0].Failure?;
  }

  /** Replays that keep their fit-time widths merge into a matrix as wide as
      all transformers together, one row per instance. */
  lemma ReplayWidths<Tr>(m: Model<Tr>, xa: Panel, sfa: Sfa<Tr>)
    requires |m.transformers| > 0 && xa.channels > 0
    requires forall i | 0 <= i < |m.transformers| :: |m.transformers[i]| == xa.channels
    requires forall i, d | 0 <= i < |m.transformers| && 0 <= d < xa.channels ::
      KeepsShape(sfa, m.transformers[i][d], Channel(xa, d))
    ensures ReplayAll(m, xa, sfa).Success?
    ensures Merge(ReplayAll(m, xa, sfa).value).Success?
    ensures Merge(ReplayAll(m, xa, sfa).value).value.cols == SumWidths(Flatten(m.transformers))
    ensures |Merge(ReplayAll(m, xa, sfa).value).value.rows| == |xa.data|
  {
    var rs := seq(|m.transformers|, ind requires 0 <= ind < |m.transformers| => ReplayMember(m.transformers[ind], xa, sfa));
    var lists := CollectAll(rs).value;
    assert ReplayAll(m, xa, sfa) == Success(Flatten(lists));
    FlattenLength(lists, xa.channels);
    FlattenWidths(lists, m.transformers);
    var rows := |xa.data|;
    FlattenAll(lists, (b: Matrix) => |b.rows| == rows);
    var bs := Flatten(lists);
    PositiveFactors(|lists|, xa.channels);
    assert SameRows(bs);
    TotalColsMatchesWidths(bs, Flatten(m.transformers));
  }

  /** When every replay keeps its fit-time width, a series with as many
      dimensions as the training series yields exactly `total_features_count`
      columns, one row per new instance. */
  lemma SchemaStable<Tr>(s: Settings, x: Panel, y: seq<Label>, rng: Seed -> Draws, sfa: Sfa<Tr>, m: Model<Tr>, x2: Panel)
    requires Fit(s, x, y, rng, sfa) == Success(m)
    requires x2.channels == x.channels
    requires forall i, d | 0 <= i < |m.transformers| && 0 <= d < |m.transformers[i]| ::
      d < Prepare(s.useFirstDifferences, x2).channels
      && KeepsShape(sfa, m.transformers[i][d], Channel(Prepare(s.useFirstDifferences, x2), d))
    ensures TransformWords(m, x2, sfa).Success?
    ensures TransformWords(m, x2, sfa).value.cols == m.totalFeatures
    ensures |TransformWords(m, x2, sfa).value.rows| == |x2.data|
  {
    FitSteps(s, x, y, rng, sfa, m);
    FitShape(s, x, y, rng, sfa, m);
    FitCounts(s, x, y, rng, sfa, m);
    TransformOrder(s, x, y, rng, sfa, m, x2);
    ReplayWidths(m, Prepare(s.useFirstDifferences, x2), sfa);
  }

  /** When every replay keeps its fit-time shape on a series with `n_dims`
      dimensions after augmentation, replay `d` of member `i` fills the same
      columns of the inference matrix that `FittedOn` gives its fit-time
      block in the training matrix. */
  lemma TransformColumns<Tr>(m: Model<Tr>, x: Panel, sfa: Sfa<Tr>, i: nat, d: nat, row: nat, c: nat)
    requires Prepare(m.settings.useFirstDifferences, x).channels == m.nDims
    requires forall q | 0 <= q < |m.transformers| :: |m.transformers[q]| == m.nDims
    requires forall q, e | 0 <= q < |m.transformers| && 0 <= e < m.nDims ::
      KeepsShape(sfa, m.transformers[q][e], Channel(Prepare(m.settings.useFirstDifferences, x), e))
    requires TransformWords(m, x, sfa).Success?
    requires i < |m.transformers| && d < m.nDims && row < |x.data| && c < m.transformers[i][d].width
    ensures Slot(i, m.nDims, d) < |Flatten(m.transformers)|
    ensures |TransformWords(m, x, sfa).value.rows| == |x.data|
    ensures SumWidths(Flatten(m.transformers)[..Slot(i, m.nDims, d)]) + c < TransformWords(m, x, sfa).value.cols
    ensures var replay := Replay(sfa, m.transformers[i][d], Channel(Prepare(m.settings.useFirstDifferences, x), d));
      && |replay.rows| == |x.data| && |replay.rows[row]| == m.transformers[i][d].width
      && TransformWords(m, x, sfa).value.rows[row][SumWidths(Flatten(m.transformers)[..Slot(i, m.nDims, d)]) + c]
         == replay.rows[row][c]
  {
    var xa := Prepare(m.settings.useFirstDifferences, x);
    var g := TransformMerged(m, x, sfa);
    ReplayColumns(m, xa, sfa, g, i, d);
    var replay := Replay(sfa, m.transformers[i][d], Channel(xa, d));
    var at := SumWidths(Flatten(m.transformers)[..Slot(i, m.nDims, d)]);
    assert row < |replay.rows| && c < replay.cols;
    assert g == TransformWords(m, x, sfa).value && |replay.rows[row]| == replay.cols;
    assert g.rows[row][at + c] == replay.rows[row][c];
  }

  /** A successful inference matrix is the merge of the replayed blocks. */
  lemma TransformMerged<Tr>(m: Model<Tr>, x: Panel, sfa: Sfa<Tr>) returns (g: Matrix)
    requires TransformWords(m, x, sfa).Success?
    ensures g == TransformWords(m, x, sfa).value
    ensures ReplayAll(m, Prepare(m.settings.useFirstDifferences, x), sfa).Success?
    ensures Merge(ReplayAll(m, Prepare(m.settings.useFirstDifferences, x), sfa).value) == Success(g)
  {
    g := TransformWords(m, x, sfa).value;
  }

  /** `TransformColumns` over the augmented series `xa` and the merged replays `g`. */
  lemma ReplayColumns<Tr>(m: Model<Tr>, xa: Panel, sfa: Sfa<Tr>, g: Matrix, i: nat, d: nat)
    requires xa.channels == m.nDims
    requires forall q | 0 <= q < |m.transformers| :: |m.transformers[q]| == m.nDims
    requires forall q, e | 0 <= q < |m.transformers| && 0 <= e < m.nDims ::
      KeepsShape(sfa, m.transformers[q][e], Channel(xa, e))
    requires ReplayAll(m, xa, sfa).Success? && Merge(ReplayAll(m, xa, sfa).value) == Success(g)
    requires i < |m.transformers| && d < m.nDims
    ensures Slot(i, m.nDims, d) < |Flatten(m.transformers)|
    ensures |g.rows| == |xa.data|
    ensures var replay := Replay(sfa, m.transformers[i][d], Channel(xa, d));
      && |replay.rows| == |xa.data| && replay.cols == m.transformers[i][d].width
      && SumWidths(Flatten(m.transformers)[..Slot(i, m.nDims, d)]) + replay.cols <= g.cols
      && forall row, c | 0 <= row < |replay.rows| && 0 <= c < replay.cols ::
           g.rows[row][SumWidths(Flatten(m.transformers)[..Slot(i, m.nDims, d)]) + c] == replay.rows[row][c]
  {
    var lists := ReplayLists(m, xa, sfa);
    BlockColumns(lists, m.transformers, m.nDims, g, i, d);
  }

  /** The per-member replay lists whose concatenation `ReplayAll` returns. */
  lemma ReplayLists<Tr>(m: Model<Tr>, xa: Panel, sfa: Sfa<Tr>) returns (lists: seq<seq<Matrix>>)
    requires ReplayAll(m, xa, sfa).Success?
    ensures ReplayAll(m, xa, sfa) == Success(Flatten(lists))
    ensures |lists| == |m.transformers|
    ensures forall q | 0 <= q < |lists| ::
      && |lists[q]| == xa.channels
      && forall e | 0 <= e < xa.channels :: lists[q][e] == Replay(sfa, m.transformers[q][e], Channel(xa, e))
  {
    var rs := seq(|m.transformers|, ind requires 0 <= ind < |m.transformers| => ReplayMember(m.transformers[ind], xa, sfa));
    lists := CollectAll(rs).value;
    assert ReplayAll(m, xa, sfa) == Success(Flatten(lists));
    forall q | 0 <= q < |lists|
      ensures |lists[q]| == xa.channels
      ensures forall e | 0 <= e < xa.channels :: lists[q][e] == Replay(sfa, m.transformers[q][e], Channel(xa, e))
    {
      assert lists[q] == ReplayMember(m.transformers[q], xa, sfa).value;
    }
  }
}

=== FILE: outcomes.dfy ===
/** Failure-compatible results for the two dictionary classifiers.

    Every exception the classifiers raise (or let numpy, math or the random
    generator raise) on the modelled paths becomes one `Error` value; the
    operations return a `Result` instead of requiring the bad input away.
 */
module Outcomes {

  /** The exceptions on the modelled paths. */
  datatype Error =
      /** ValueError: `min_window` exceeds the clamped `max_window`. */
    | WindowRange(minWindow: int, maxWindow: int, seriesLength: nat)
      /** ValueError: both `variance` and `anova` are set (MUSE only). */
    | VarianceAndAnova
      /** ValueError from `math.log2(0)` when there are no dimensions (MUSE only). */
    | LogOfZero
      /** ValueError from `rng.choice` on an empty candidate list. */
    | EmptyChoice
      /** IndexError from `all_words[0]` when there is no block to merge. */
    | EmptyMerge
      /** ValueError from concatenating blocks whose row counts differ. */
    | RowMismatch
      /** ValueError from `squeeze(1)` on input with more than one channel (WEASEL only). */
    | NotUnivariate
      /** IndexError from `SFA_transformers[dim]` on input with more channels than were fitted. */
    | DimensionOutOfRange(dim: nat, fitted: nat)
      /** ValueError from `argmax` over zero score columns. */
    | EmptyScores
      /** IndexError from `classes_[indices]` when an index has no class. */
    | ClassIndexOutOfRange(index: nat, classes: nat)

  datatype Result<+T> = Success(value: T) | Failure(error: Error) {

    predicate IsFailure() {
      Failure?
    }

    function PropagateFailure<U>(): Result<U>
      requires Failure?
    {
      Failure(error)
    }

    function Extract(): T
      requires Success?
    {
      value
    }
  }

  /** A value that may be absent, as Python's `None`. */
  datatype Option<+T> = None | Some(value: T)
}

=== FILE: sampling.dfy ===
/** Per-member configuration sampling, shared by WEASEL 2.0 and MUSE 2.0.

    Each ensemble member seeds its own random generator and draws one
    configuration: a window size from the inclusive window range, an
    alphabet size, a word length (then clamped to `window_size - 2`), a
    normalisation flag, a binning strategy and a dilation. The generator is
    not modelled: its draws arrive as a `Draws` value, each pick an index
    into the candidate list, and the dilation draw as the integer
    `int32(2 ** u)` before it is floored at one.
 */
module Sampling {
  import opened Outcomes

  /** The binning methods SFA knows. */
  datatype Binning = EquiDepth | EquiWidth | InformationGain | KMeans | Quantile

  /** Where a member's draws come from. With no `random_state`,
      `check_random_state(None)` hands every member numpy's one global
      generator: `Shared(i)` stands for member `i`'s draws from that shared
      stream, which depend on the global state and on the order in which the
      threads draw. With a `random_state`, member `i` owns a generator seeded
      with `random_state + i`. */
  datatype Seed = Shared(member: nat) | Fixed(value: int)

  function MemberSeed(randomState: Option<int>, i: nat): (s: Seed)
    ensures s.Shared? <==> randomState.None?
    ensures s.Shared? ==> s.member == i
    ensures s.Fixed? ==> s.value - i == randomState.value
  {
    match randomState
    case None => Shared(i)
    case Some(base) => Fixed(base + i)
  }

  /** With a `random_state`, distinct members of one ensemble never share a seed. */
  lemma MemberSeedsDistinct(randomState: Option<int>, i: nat, j: nat)
    requires randomState.Some? && i != j
    ensures MemberSeed(randomState, i) != MemberSeed(randomState, j)
  {
  }

  /** numpy's `RandomState` accepts integer seeds from 0 up to, not including, `2^32`. */
  const SeedBound: int := 0x1_0000_0000

  /** Every member seed `random_state + i` for `i < members` is one numpy accepts. */
  predicate SeedsAccepted(randomState: Option<int>, members: int) {
    randomState.None? || (0 <= randomState.value && randomState.value + members <= SeedBound)
  }

  /** Seeds are offset by the member index, so member `i + 1` of a fit with
      `random_state = s` draws exactly what member `i` draws with `s + 1`. */
  lemma MemberSeedShift(base: int, i: nat)
    ensures MemberSeed(Some(base), i + 1) == MemberSeed(Some(base + 1), i)
  {
  }

  /** The raw draws of one member's generator. */
  datatype Draws = Draws(window: nat, dilation: int, alphabet: nat, wordLength: nat, norm: nat, binning: nat)

  /** `rng.choice(options)`: numpy refuses an empty candidate list. */
  function Choose<X>(options: seq<X>, pick: nat): (r: Result<X>)
    ensures r.Success? <==> |options| > 0
    ensures r.Failure? ==> r.error == EmptyChoice
    ensures r.Success? ==> r.value in options
  {
    if |options| == 0 then Failure(EmptyChoice) else Success(options[pick % |options|])
  }

  /** Every candidate can be drawn. */
  lemma ChooseReaches<X>(options: seq<X>, k: nat)
    requires k < |options|
    ensures Choose(options, k) == Success(options[k])
  {
    var n := |options|;
    assert k / n == 0;
    assert k % n == k;
  }

  /** `min(window_size - 2, drawn)`: the word never exceeds the window less two. */
  function ClampWordLength(windowSize: int, drawn: int): (w: int)
    ensures w <= windowSize - 2 && w <= drawn
    ensures w == windowSize - 2 || w == drawn
  {
    if windowSize - 2 < drawn then windowSize - 2 else drawn
  }

  /** `max(1, k)`: a dilation is at least one, whatever was drawn. */
  function FloorDilation(k: int): (d: int)
    ensures d >= 1 && d >= k
    ensures d == 1 || d == k
  {
    if k < 1 then 1 else k
  }

  /** One member's configuration. */
  datatype Config = Config(
    windowSize: int,
    dilation: int,
    alphabetSize: int,
    wordLength: int,
    norm: bool,
    binning: Binning)

  /** Draws one configuration from the candidate lists. */
  function SampleConfig(
    windowSizes: seq<int>, alphabetSizes: seq<int>, wordLengths: seq<int>,
    normOptions: seq<bool>, binnings: seq<Binning>, d: Draws): (r: Result<Config>)
    ensures r.Success? <==>
      |windowSizes| > 0 && |alphabetSizes| > 0 && |wordLengths| > 0 && |normOptions| > 0 && |binnings| > 0
    ensures r.Failure? ==> r.error == EmptyChoice
    ensures r.Success? ==>
      && r.value.windowSize in windowSizes
      && r.value.alphabetSize in alphabetSizes
      && r.value.norm in normOptions
      && r.value.binning in binnings
    ensures r.Success? ==>
      && r.value.wordLength <= r.value.windowSize - 2
      && (r.value.wordLength == r.value.windowSize - 2 || r.value.wordLength in wordLengths)
      && exists w | w in wordLengths :: r.value.wordLength <= w
    ensures r.Success? ==>
      r.value.dilation >= 1 && r.value.dilation >= d.dilation && (r.value.dilation == 1 || r.value.dilation == d.dilation)
  {
    var windowSize :- Choose(windowSizes, d.window);
    var alphabetSize :- Choose(alphabetSizes, d.alphabet);
    var drawnLength :- Choose(wordLengths, d.wordLength);
    var norm :- Choose(normOptions, d.norm);
    var binning :- Choose(binnings, d.binning);
    Success(Config(windowSize, FloorDilation(d.dilation), alphabetSize,
                   ClampWordLength(windowSize, drawnLength), norm, binning))
  }

  /** `np.arange(lo, hi + 1)`: the integers from `lo` to `hi`, ascending. */
  function Range(lo: int, hi: int): (r: seq<int>)
    ensures |r| == if hi < lo then 0 else hi - lo + 1
    ensures forall k | 0 <= k < |r| :: r[k] == lo + k
    decreases hi - lo
  {
    if hi < lo then [] else [lo] + Range(lo + 1, hi)
  }

  /** The range holds exactly the integers between its bounds. */
  lemma RangeMembers(lo: int, hi: int, x: int)
    ensures x in Range(lo, hi) <==> lo <= x <= hi
  {
    var r := Range(lo, hi);
    if lo <= x <= hi {
      assert r[x - lo] == x;
    }
  }

  /** `max_window = min(series_length, max_window)`, then the ValueError when
      `min_window` exceeds it. */
  function BoundWindow(minWindow: int, maxWindow: int, seriesLength: nat): (r: Result<int>)
    ensures r.Success? <==> minWindow <= seriesLength && minWindow <= maxWindow
    ensures r.Success? ==>
      && minWindow <= r.value
      && r.value <= seriesLength && r.value <= maxWindow
      && (r.value == seriesLength || r.value == maxWindow)
    ensures r.Failure? ==>
      && r.error.WindowRange?
      && r.error.minWindow == minWindow && r.error.seriesLength == seriesLength
      && r.error.maxWindow < minWindow
      && r.error.maxWindow <= seriesLength && r.error.maxWindow <= maxWindow
      && (r.error.maxWindow == seriesLength || r.error.maxWindow == maxWindow)
  {
    var bounded := if seriesLength < maxWindow then seriesLength else maxWindow;
    if minWindow > bounded then Failure(WindowRange(minWindow, bounded, seriesLength))
    else Success(bounded)
  }
}

=== FILE: shapes.dfy ===
/** The array shapes the classifiers pass around.

    A `Matrix` is a dense two-dimensional array `[rows, cols]`: a univariate
    series collection `[n_instances, series_length]`, one dimension of a
    multivariate collection, or a bag-of-words block `[n_instances, n_words]`.
    A `Panel` is the three-dimensional input `[n_instances, n_dims, series_length]`.
    Both carry their column (and channel) counts explicitly so that the shape
    is known even when there are no rows, as it is for a numpy array.
 */
module Shapes {
  import opened Outcomes

  /** Class labels; the classifiers never look inside them. */
  type Label = string

  datatype Grid = Grid(cols: nat, rows: seq<seq<real>>)

  /** A grid whose every row has exactly `cols` entries. */
  predicate Rectangular(g: Grid) {
    forall i | 0 <= i < |g.rows| :: |g.rows[i]| == g.cols
  }

  type Matrix = g: Grid | Rectangular(g) witness Grid(0, [])

  datatype Cube = Cube(channels: nat, length: nat, data: seq<seq<seq<real>>>)

  /** Every instance has `channels` channels of `length` values each. */
  predicate Shaped(p: Cube) {
    forall i | 0 <= i < |p.data| ::
      |p.data[i]| == p.channels &&
      forall c | 0 <= c < p.channels :: |p.data[i][c]| == p.length
  }

  type Panel = p: Cube | Shaped(p) witness Cube(0, 0, [])

  /** `X[:, dim]`: dimension `dim` of every instance, as an `[n_instances, length]` matrix. */
  function Channel(x: Panel, dim: nat): (m: Matrix)
    requires dim < x.channels
    ensures |m.rows| == |x.data| && m.cols == x.length
    ensures forall i | 0 <= i < |x.data| :: m.rows[i] == x.data[i][dim]
  {
    Grid(x.length, seq(|x.data|, i requires 0 <= i < |x.data| => x.data[i][dim]))
  }

  /** `X.squeeze(1)`: drops the dimension axis, which numpy refuses unless it has size one. */
  function Squeeze(x: Panel): (r: Result<Matrix>)
    ensures r.Success? <==> x.channels == 1
    ensures r.Failure? ==> r.error == NotUnivariate
    ensures r.Success? ==> |r.value.rows| == |x.data| && r.value.cols == x.length
    ensures r.Success? ==> forall i | 0 <= i < |x.data| :: r.value.rows[i] == x.data[i][0]
  {
    if x.channels != 1 then Failure(NotUnivariate) else Success(Channel(x, 0))
  }
}

=== FILE: weasel.dfy ===
/** WEASEL 2.0: the univariate dictionary classifier (`WEASEL_V2`).

    `Fit` follows `_fit`: it squeezes the single dimension away, picks the
    maximal window and the ensemble size from the data size, clamps and
    checks the window range, fits one SFA transformer per first-difference
    option for every member, flattens the member results in member order and
    merges the blocks. `TransformWords` replays the stored transformers in
    the same order, and the ridge classifier sees both matrices.
 */
module Weasel {
  import opened Outcomes
  import opened Shapes
  import opened Sampling
  import opened Ensemble
  import opened FeatureMerge

  /** The constructor arguments that shape the model. */
  datatype Settings = Settings(
    minWindow: int,
    normOptions: seq<bool>,
    wordLengths: seq<int>,
    useFirstDifferences: seq<bool>,
    featureSelection: string,
    maxFeatureCount: int,
    randomState: Option<int>)

  /** The values `__init__` fixes regardless of its arguments. */
  const AlphabetSizes: seq<int> := [2]
  const BinningStrategies: seq<Binning> := [EquiDepth, EquiWidth]
  const UseVariance: bool := true
  const UseAnova: bool := false
  const UseBigrams: bool := false

  /** The maximal window and ensemble size chosen from the data size. */
  datatype Band = Band(maxWindow: int, ensembleSize: nat)

  /** Small data sets (fewer than 250 instances) get the smallest ensemble,
      short series (under 100 values) the middle one, the rest the largest. */
  function SelectBand(nInstances: nat, seriesLength: nat): (b: Band)
    ensures b == Band(24, 50) || b == Band(44, 100) || b == Band(84, 150)
    ensures b.ensembleSize == 50 <==> nInstances < 250
    ensures b.ensembleSize == 100 <==> nInstances >= 250 && seriesLength < 100
    ensures b.ensembleSize == 150 <==> nInstances >= 250 && seriesLength >= 100
  {
    if nInstances < 250 then Band(24, 50)
    else if seriesLength < 100 then Band(44, 100)
    else Band(84, 150)
  }

  /** More instances or longer series never shrink the ensemble or the window. */
  lemma BandMonotone(n1: nat, l1: nat, n2: nat, l2: nat)
    requires n1 <= n2 && l1 <= l2
    ensures SelectBand(n1, l1).ensembleSize <= SelectBand(n2, l2).ensembleSize
    ensures SelectBand(n1, l1).maxWindow <= SelectBand(n2, l2).maxWindow
  {
  }

  /** `getSFADilated`: the SFA parameters of one transformer; its feature cap
      is `max_feature_count // ensemble_size` (floor division). */
  function SfaParamsFor(s: Settings, config: Config, firstDifference: bool, i: nat, ensembleSize: nat): (p: SfaParams)
    requires ensembleSize > 0
    ensures p.config == config && p.firstDifference == firstDifference && p.randomState == i
    ensures p.maxFeatureCount * ensembleSize <= s.maxFeatureCount < (p.maxFeatureCount + 1) * ensembleSize
    ensures p.variance == UseVariance && p.anova == UseAnova && p.bigrams == UseBigrams
    ensures p.featureSelection == s.featureSelection
  {
    SfaParams(config, firstDifference, s.maxFeatureCount / ensembleSize, i,
              UseVariance, UseAnova, UseBigrams, s.featureSelection)
  }

  /** Member `i`'s configuration, drawn from its own seeded generator. */
  function MemberConfig(s: Settings, windowSizes: seq<int>, rng: Seed -> Draws, i: nat): (r: Result<Config>)
    ensures r.Success? <==> |windowSizes| > 0 && |s.wordLengths| > 0 && |s.normOptions| > 0
    ensures r.Failure? ==> r.error == EmptyChoice
    ensures r.Success? ==>
      && r.value.windowSize in windowSizes && r.value.norm in s.normOptions
      && r.value.alphabetSize == 2
      && (r.value.binning == EquiDepth || r.value.binning == EquiWidth)
      && r.value.wordLength <= r.value.windowSize - 2
      && r.value.dilation >= 1 && r.value.dilation >= rng(MemberSeed(s.randomState, i)).dilation
  {
    SampleConfig(windowSizes, AlphabetSizes, s.wordLengths, s.normOptions, BinningStrategies,
                 rng(MemberSeed(s.randomState, i)))
  }

  /** Member `i`'s configuration depends only on what its own seed draws. */
  lemma MemberConfigOwnDraws(s: Settings, windowSizes: seq<int>, rng: Seed -> Draws, rng': Seed -> Draws, i: nat)
    requires rng(MemberSeed(s.randomState, i)) == rng'(MemberSeed(s.randomState, i))
    ensures MemberConfig(s, windowSizes, rng, i) == MemberConfig(s, windowSizes, rng', i)
  {
  }

  /** What `_parallel_fit` returns: one block and one transformer per option. */
  datatype Member<Tr> = Member(words: seq<Matrix>, transformers: seq<Fitted<Tr>>)

  /** `_parallel_fit`: one configuration, then one SFA fit per first-difference option. */
  function FitMember<Tr>(
    s: Settings, i: nat, xx: Matrix, y: seq<Label>, windowSizes: seq<int>,
    ensembleSize: nat, rng: Seed -> Draws, sfa: Sfa<Tr>): (r: Result<Member<Tr>>)
    requires ensembleSize > 0
    ensures r.Success? <==> MemberConfig(s, windowSizes, rng, i).Success?
    ensures r.Failure? ==> r.error == EmptyChoice
    ensures r.Success? ==>
      && |r.value.words| == |s.useFirstDifferences|
      && |r.value.transformers| == |s.useFirstDifferences|
      && forall k | 0 <= k < |s.useFirstDifferences| ::
           && r.value.transformers[k].params
              == SfaParamsFor(s, MemberConfig(s, windowSizes, rng, i).value, s.useFirstDifferences[k], i, ensembleSize)
           && r.value.words[k].cols == r.value.transformers[k].width
           && (r.value.words[k], r.value.transformers[k].state) == sfa.fit(r.value.transformers[k].params, xx, y)
  {
    var config :- MemberConfig(s, windowSizes, rng, i);
    var options := s.useFirstDifferences;
    var fits := seq(|options|, k requires 0 <= k < |options| =>
      FitTransform(sfa, SfaParamsFor(s, config, options[k], i, ensembleSize), xx, y));
    Success(Member(seq(|fits|, k requires 0 <= k < |fits| => fits[k].0),
                   seq(|fits|, k requires 0 <= k < |fits| => fits[k].1)))
  }

  /** The parallel map over members, in member order; it fails exactly when
      a candidate list is empty. */
  function FitMembers<Tr>(
    s: Settings, xx: Matrix, y: seq<Label>, windowSizes: seq<int>,
    ensembleSize: nat, rng: Seed -> Draws, sfa: Sfa<Tr>): (r: Result<seq<Member<Tr>>>)
    requires ensembleSize > 0
    ensures r.Success? <==> |windowSizes| > 0 && |s.wordLengths| > 0 && |s.normOptions| > 0
    ensures r.Failure? ==> r.error == EmptyChoice
    ensures r.Success? ==> |r.value| == ensembleSize
    ensures r.Success? ==>
      forall i | 0 <= i < ensembleSize :: r.value[i] == FitMember(s, i, xx, y, windowSizes, ensembleSize, rng, sfa).value
  {
    CollectAll(seq(ensembleSize, i requires 0 <= i < ensembleSize =>
      FitMember(s, i, xx, y, windowSizes, ensembleSize, rng, sfa)))
  }

  /** `sfa_words.extend(words)` over the members. */
  function AllWords<Tr>(members: seq<Member<Tr>>): seq<Matrix> {
    Flatten(seq(|members|, i requires 0 <= i < |members| => members[i].words))
  }

  /** `SFA_transformers.extend(transformer)` over the members. */
  function AllTransformers<Tr>(members: seq<Member<Tr>>): seq<Fitted<Tr>> {
    Flatten(seq(|members|, i requires 0 <= i < |members| => members[i].transformers))
  }

  /** A fitted WEASEL 2.0 model, with the matrix the ridge classifier is trained on. */
  datatype Model<Tr> = Model(
    nInstances: nat,
    seriesLength: nat,
    maxWindow: int,
    ensembleSize: nat,
    windowSizes: seq<int>,
    transformers: seq<Fitted<Tr>>,
    trainWords: Matrix,
    totalFeatures: nat)

  /** `_fit`, up to the ridge classifier. */
  function Fit<Tr>(s: Settings, x: Panel, y: seq<Label>, rng: Seed -> Draws, sfa: Sfa<Tr>): (r: Result<Model<Tr>>)
    ensures x.channels != 1 ==> r == Failure(NotUnivariate)
    ensures x.channels == 1 ==>
      var bound := SelectBand(|x.data|, x.length).maxWindow;
      ((r.Failure? && r.error.WindowRange?) <==> s.minWindow > x.length || s.minWindow > bound)
    ensures r.Success? ==>
      && r.value.nInstances == |x.data| && r.value.seriesLength == x.length
      && r.value.ensembleSize == SelectBand(|x.data|, x.length).ensembleSize
      && r.value.maxWindow <= x.length
      && r.value.maxWindow <= SelectBand(|x.data|, x.length).maxWindow
      && (r.value.maxWindow == x.length || r.value.maxWindow == SelectBand(|x.data|, x.length).maxWindow)
      && |r.value.windowSizes| == r.value.maxWindow - s.minWindow + 1
      && (forall k | 0 <= k < |r.value.windowSizes| :: r.value.windowSizes[k] == s.minWindow + k)
    ensures r.Success? ==> |s.useFirstDifferences| > 0 && |s.wordLengths| > 0 && |s.normOptions| > 0
    ensures r.Success? ==> r.value.totalFeatures == r.value.trainWords.cols
  {
    var xx :- Squeeze(x);
    var band := SelectBand(|x.data|, x.length);
    var maxWindow :- BoundWindow(s.minWindow, band.maxWindow, x.length);
    var windowSizes := Range(s.minWindow, maxWindow);
    var members :- FitMembers(s, xx, y, windowSizes, band.ensembleSize, rng, sfa);
    MergeNeedsBlocks(s, members);
    var words :- Merge(AllWords(members));
    Success(Model(|x.data|, x.length, maxWindow, band.ensembleSize, windowSizes,
                  AllTransformers(members), words, words.cols))
  }

  /** The merge at the end of `_fit` only succeeds on a nonempty block list,
      so it needs a member and a first-difference option. */
  lemma {:induction false} MergeNeedsBlocks<Tr>(s: Settings, members: seq<Member<Tr>>)
    requires forall i | 0 <= i < |members| :: |members[i].words| == |s.useFirstDifferences|
    ensures Merge(AllWords(members)).Success? ==> |s.useFirstDifferences| > 0 && |members| > 0
  {
    var u := |s.useFirstDifferences|;
    FlattenLength(seq(|members|, i requires 0 <= i < |members| => members[i].words), u);
    assert u == 0 || |members| == 0 ==> |members| * u == 0;
  }

  /** A successful fit, taken apart into the steps of `_fit`. */
  lemma FitSteps<Tr>(s: Settings, x: Panel, y: seq<Label>, rng: Seed -> Draws, sfa: Sfa<Tr>, m: Model<Tr>)
    requires Fit(s, x, y, rng, sfa) == Success(m)
    ensures x.channels == 1
    ensures m.ensembleSize > 0
    ensures BoundWindow(s.minWindow, SelectBand(|x.data|, x.length).maxWindow, x.length) == Success(m.maxWindow)
    ensures m.windowSizes == Range(s.minWindow, m.maxWindow)
    ensures FitMembers(s, Squeeze(x).value, y, m.windowSizes, m.ensembleSize, rng, sfa).Success?
    ensures var members := FitMembers(s, Squeeze(x).value, y, m.windowSizes, m.ensembleSize, rng, sfa).value;
      && |members| == m.ensembleSize
      && m.transformers == AllTransformers(members)
      && Merge(AllWords(members)) == Success(m.trainWords)
  {
  }

  /** Member `i`'s transformer for option `k` sits at `i * |options| + k` of the flattened list. */
  lemma MembersLayout<Tr>(
    s: Settings, xx: Matrix, y: seq<Label>, windowSizes: seq<int>, ensembleSize: nat,
    rng: Seed -> Draws, sfa: Sfa<Tr>, i: nat, k: nat)
    requires ensembleSize > 0
    requires FitMembers(s, xx, y, windowSizes, ensembleSize, rng, sfa).Success?
    requires i < ensembleSize && k < |s.useFirstDifferences|
    ensures var ts := AllTransformers(FitMembers(s, xx, y, windowSizes, ensembleSize, rng, sfa).value);
      && Slot(i, |s.useFirstDifferences|, k) < |ts|
      && MemberConfig(s, windowSizes, rng, i).Success?
      && ts[Slot(i, |s.useFirstDifferences|, k)].params
         == SfaParamsFor(s, MemberConfig(s, windowSizes, rng, i).value, s.useFirstDifferences[k], i, ensembleSize)
  {
    var members := FitMembers(s, xx, y, windowSizes, ensembleSize, rng, sfa).value;
    var tss := seq(|members|, j requires 0 <= j < |members| => members[j].transformers);
    assert members[i] == FitMember(s, i, xx, y, windowSizes, ensembleSize, rng, sfa).value;
    FlattenAt(tss, |s.useFirstDifferences|, i, k);
  }

  /** The flattened transformer list is member-major: entry `i * |options| + k`
      was built from member `i`'s one configuration and first-difference option `k`. */
  lemma FitLayout<Tr>(s: Settings, x: Panel, y: seq<Label>, rng: Seed -> Draws, sfa: Sfa<Tr>, m: Model<Tr>, i: nat, k: nat)
    requires Fit(s, x, y, rng, sfa) == Success(m)
    requires i < m.ensembleSize && k < |s.useFirstDifferences|
    ensures m.ensembleSize > 0
    ensures Slot(i, |s.useFirstDifferences|, k) < |m.transformers|
    ensures MemberConfig(s, m.windowSizes, rng, i).Success?
    ensures m.transformers[Slot(i, |s.useFirstDifferences|, k)].params
      == SfaParamsFor(s, MemberConfig(s, m.windowSizes, rng, i).value, s.useFirstDifferences[k], i, m.ensembleSize)
  {
    FitSteps(s, x, y, rng, sfa, m);
    var xx := Squeeze(x).value;
    var members := FitMembers(s, xx, y, m.windowSizes, m.ensembleSize, rng, sfa).value;
    MembersLayout(s, xx, y, m.windowSizes, m.ensembleSize, rng, sfa, i, k);
    assert m.transformers == AllTransformers(members);
  }

  /** Member `i`'s block and transformer for option `k` sit at the same slot
      `i * |options| + k` of the flattened lists, and are exactly what the SFA
      fit with that transformer's parameters on the squeezed series returned. */
  lemma MembersProvenance<Tr>(
    s: Settings, xx: Matrix, y: seq<Label>, windowSizes: seq<int>, ensembleSize: nat,
    rng: Seed -> Draws, sfa: Sfa<Tr>, i: nat, k: nat)
    requires ensembleSize > 0
    requires FitMembers(s, xx, y, windowSizes, ensembleSize, rng, sfa).Success?
    requires i < ensembleSize && k < |s.useFirstDifferences|
    ensures var members := FitMembers(s, xx, y, windowSizes, ensembleSize, rng, sfa).value;
      var j := Slot(i, |s.useFirstDifferences|, k);
      && j < |AllWords(members)| && j < |AllTransformers(members)|
      && (AllWords(members)[j], AllTransformers(members)[j].state)
         == sfa.fit(AllTransformers(members)[j].params, xx, y)
  {
    var members := FitMembers(s, xx, y, windowSizes, ensembleSize, rng, sfa).value;
    var u := |s.useFirstDifferences|;
    var wss := seq(|members|, q requires 0 <= q < |members| => members[q].words);
    var tss := seq(|members|, q requires 0 <= q < |members| => members[q].transformers);
    assert members[i] == FitMember(s, i, xx, y, windowSizes, ensembleSize, rng, sfa).value;
    FlattenAt(wss, u, i, k);
    FlattenAt(tss, u, i, k);
  }

  /** A model whose transformers and training matrix were assembled from
      `members`, each holding `n` SFA fits on `xx`. */
  ghost predicate Assembled<Tr>(m: Model<Tr>, members: seq<Member<Tr>>, xx: Matrix, y: seq<Label>, sfa: Sfa<Tr>, n: nat) {
    && m.transformers == AllTransformers(members)
    && Merge(AllWords(members)) == Success(m.trainWords)
    && forall q | 0 <= q < |members| ::
         && |members[q].words| == n && |members[q].transformers| == n
         && forall e | 0 <= e < n ::
              && members[q].words[e].cols == members[q].transformers[e].width
              && (members[q].words[e], members[q].transformers[e].state)
                 == sfa.fit(members[q].transformers[e].params, xx, y)
  }

  /** The members behind a successful fit, with what each one fitted. */
  lemma FitParts<Tr>(s: Settings, x: Panel, y: seq<Label>, rng: Seed -> Draws, sfa: Sfa<Tr>, m: Model<Tr>)
    returns (members: seq<Member<Tr>>)
    requires Fit(s, x, y, rng, sfa) == Success(m)
    ensures x.channels == 1 && |members| == m.ensembleSize
    ensures Assembled(m, members, Squeeze(x).value, y, sfa, |s.useFirstDifferences|)
  {
    FitSteps(s, x, y, rng, sfa, m);
    var xx := Squeeze(x).value;
    members := FitMembers(s, xx, y, m.windowSizes, m.ensembleSize, rng, sfa).value;
    forall q | 0 <= q < |members|
      ensures members[q] == FitMember(s, q, xx, y, m.windowSizes, m.ensembleSize, rng, sfa).value
    {
    }
  }

  /** `FitProvenance` for a model assembled from members whose blocks and
      transformers came from SFA fits on `xx`. */
  lemma ModelProvenance<Tr>(m: Model<Tr>, members: seq<Member<Tr>>, xx: Matrix, y: seq<Label>, sfa: Sfa<Tr>, n: nat, i: nat, k: nat)
    requires Assembled(m, members, xx, y, sfa, n)
    requires i < |members| && k < n
    ensures Slot(i, n, k) < |m.transformers|
    ensures FittedAt(m, xx, y, sfa, Slot(i, n, k))
  {
    var wss: seq<seq<Matrix>> := seq(|members|, q requires 0 <= q < |members| => members[q].words);
    var tss: seq<seq<Fitted<Tr>>> := seq(|members|, q requires 0 <= q < |members| => members[q].transformers);
    BlockColumns(wss, tss, n, m.trainWords, i, k);
    assert m.transformers == Flatten(tss) && m.transformers[Slot(i, n, k)] == members[i].transformers[k];
  }

  /** Stored transformer `j` keeps the state of the SFA fit with its parameters
      on `xx` and `y`, and the block that fit returned fills the training
      matrix, column for column, from column `SumWidths(transformers[..j])` on. */
  ghost predicate FittedAt<Tr>(m: Model<Tr>, xx: Matrix, y: seq<Label>, sfa: Sfa<Tr>, j: nat)
    requires j < |m.transformers|
  {
    var fitted := sfa.fit(m.transformers[j].params, xx, y);
    && m.transformers[j].state == fitted.1
    && m.transformers[j].width == fitted.0.cols
    && |fitted.0.rows| == |m.trainWords.rows|
    && SumWidths(m.transformers[..j]) + fitted.0.cols <= m.trainWords.cols
    && forall row, c | 0 <= row < |fitted.0.rows| && 0 <= c < fitted.0.cols ::
         m.trainWords.rows[row][SumWidths(m.transformers[..j]) + c] == fitted.0.rows[row][c]
  }

  /** Fit-time provenance: stored transformer `j = i * |options| + k` was
      fitted on the squeezed series, as `FittedAt` says. */
  lemma FitProvenance<Tr>(s: Settings, x: Panel, y: seq<Label>, rng: Seed -> Draws, sfa: Sfa<Tr>, m: Model<Tr>, i: nat, k: nat)
    requires Fit(s, x, y, rng, sfa) == Success(m)
    requires i < m.ensembleSize && k < |s.useFirstDifferences|
    ensures x.channels == 1 && Slot(i, |s.useFirstDifferences|, k) < |m.transformers|
    ensures FittedAt(m, Squeeze(x).value, y, sfa, Slot(i, |s.useFirstDifferences|, k))
  {
    var members := FitParts(s, x, y, rng, sfa, m);
    ModelProvenance(m, members, Squeeze(x).value, y, sfa, |s.useFirstDifferences|, i, k);
  }

  /** The members' flattened lists: `ensemble_size` transformers per option,
      as wide together as the flattened blocks. */
  lemma MembersCounts<Tr>(
    s: Settings, xx: Matrix, y: seq<Label>, windowSizes: seq<int>, ensembleSize: nat,
    rng: Seed -> Draws, sfa: Sfa<Tr>)
    requires ensembleSize > 0
    requires FitMembers(s, xx, y, windowSizes, ensembleSize, rng, sfa).Success?
    ensures var members := FitMembers(s, xx, y, windowSizes, ensembleSize, rng, sfa).value;
      && |AllTransformers(members)| == ensembleSize * |s.useFirstDifferences|
      && TotalCols(AllWords(members)) == SumWidths(AllTransformers(members))
  {
    var members := FitMembers(s, xx, y, windowSizes, ensembleSize, rng, sfa).value;
    var wss := seq(|members|, j requires 0 <= j < |members| => members[j].words);
    var tss := seq(|members|, j requires 0 <= j < |members| => members[j].transformers);
    FlattenLength(tss, |s.useFirstDifferences|);
    FlattenWidths(wss, tss);
    TotalColsMatchesWidths(Flatten(wss), Flatten(tss));
  }

  /** A fit holds `ensemble_size` transformers per option, and its feature
      count is the sum of their fit-time block widths. */
  lemma FitCounts<Tr>(s: Settings, x: Panel, y: seq<Label>, rng: Seed -> Draws, sfa: Sfa<Tr>, m: Model<Tr>)
    requires Fit(s, x, y, rng, sfa) == Success(m)
    ensures |m.transformers| == m.ensembleSize * |s.useFirstDifferences|
    ensures m.totalFeatures == SumWidths(m.transformers)
  {
    FitSteps(s, x, y, rng, sfa, m);
    MembersCounts(s, Squeeze(x).value, y, m.windowSizes, m.ensembleSize, rng, sfa);
  }

  /** Every member's transformers carry the cap `max_feature_count // ensemble_size`. */
  lemma MembersCaps<Tr>(
    s: Settings, xx: Matrix, y: seq<Label>, windowSizes: seq<int>, ensembleSize: nat,
    rng: Seed -> Draws, sfa: Sfa<Tr>)
    requires ensembleSize > 0
    requires FitMembers(s, xx, y, windowSizes, ensembleSize, rng, sfa).Success?
    ensures var ts := AllTransformers(FitMembers(s, xx, y, windowSizes, ensembleSize, rng, sfa).value);
      forall j | 0 <= j < |ts| :: ts[j].params.maxFeatureCount == s.maxFeatureCount / ensembleSize
  {
    var members := FitMembers(s, xx, y, windowSizes, ensembleSize, rng, sfa).value;
    var tss := seq(|members|, j requires 0 <= j < |members| => members[j].transformers);
    var cap := s.maxFeatureCount / ensembleSize;
    FlattenAll(tss, (t: Fitted<Tr>) => t.params.maxFeatureCount == cap);
  }

  /** Every transformer gets `max_feature_count // ensemble_size`, so the caps
      of one first-difference option sum to at most `max_feature_count`, and
      all caps together to at most that times the number of options. */
  lemma FitBudget<Tr>(s: Settings, x: Panel, y: seq<Label>, rng: Seed -> Draws, sfa: Sfa<Tr>, m: Model<Tr>)
    requires Fit(s, x, y, rng, sfa) == Success(m)
    ensures forall j | 0 <= j < |m.transformers| ::
      m.transformers[j].params.maxFeatureCount == s.maxFeatureCount / m.ensembleSize
    ensures SumCaps(m.transformers) <= |s.useFirstDifferences| * s.maxFeatureCount
  {
    FitSteps(s, x, y, rng, sfa, m);
    FitCounts(s, x, y, rng, sfa, m);
    MembersCaps(s, Squeeze(x).value, y, m.windowSizes, m.ensembleSize, rng, sfa);
    SumCapsUniform(m.transformers, s.maxFeatureCount / m.ensembleSize);
    FloorShareBound(m.ensembleSize, |s.useFirstDifferences|, s.maxFeatureCount);
  }

  /** `e * u` shares of `total // e` never exceed `u * total`. */
  lemma FloorShareBound(e: nat, u: nat, total: int)
    requires e > 0
    ensures (e * u) * (total / e) <= u * total
  {
    var q := total / e;
    assert e * q <= total;
    assert (e * u) * q == u * (e * q);
    assert u * (e * q) <= u * total;
  }

  /** When the SFA returns one row per instance, the member words are
      `ensemble_size * |options|` blocks that all have one row per instance. */
  lemma MembersRows<Tr>(
    s: Settings, xx: Matrix, y: seq<Label>, windowSizes: seq<int>, ensembleSize: nat,
    rng: Seed -> Draws, sfa: Sfa<Tr>)
    requires ensembleSize > 0
    requires FitMembers(s, xx, y, windowSizes, ensembleSize, rng, sfa).Success?
    requires RowPreserving(sfa, y)
    ensures var bs := AllWords(FitMembers(s, xx, y, windowSizes, ensembleSize, rng, sfa).value);
      && |bs| == ensembleSize * |s.useFirstDifferences|
      && forall j | 0 <= j < |bs| :: |bs[j].rows| == |xx.rows|
  {
    var members := FitMembers(s, xx, y, windowSizes, ensembleSize, rng, sfa).value;
    var wss: seq<seq<Matrix>> := seq(|members|, q requires 0 <= q < |members| => members[q].words);
    var n := |xx.rows|;
    forall q, k | 0 <= q < |wss| && 0 <= k < |wss[q]|
      ensures |wss[q][k].rows| == n
    {
      assert members[q] == FitMember(s, q, xx, y, windowSizes, ensembleSize, rng, sfa).value;
    }
    FlattenAll(wss, (b: Matrix) => |b.rows| == n);
    FlattenLength(wss, |s.useFirstDifferences|);
  }

  /** A fit succeeds on a univariate panel whose window range is nonempty and
      starts at 2 or more, with member seeds numpy accepts, given nonempty
      candidate lists and first-difference options, when the SFA returns one
      row per instance. (A window of at most 1 makes the dilation draw raise, and so
      does a seed outside numpy's range.) */
  lemma FitSucceeds<Tr>(s: Settings, x: Panel, y: seq<Label>, rng: Seed -> Draws, sfa: Sfa<Tr>)
    requires x.channels == 1
    requires 2 <= s.minWindow <= x.length && s.minWindow <= SelectBand(|x.data|, x.length).maxWindow
    requires SeedsAccepted(s.randomState, SelectBand(|x.data|, x.length).ensembleSize)
    requires |s.wordLengths| > 0 && |s.normOptions| > 0 && |s.useFirstDifferences| > 0
    requires RowPreserving(sfa, y)
    ensures Fit(s, x, y, rng, sfa).Success?
  {
    var xx := Squeeze(x).value;
    var band := SelectBand(|x.data|, x.length);
    var maxWindow := BoundWindow(s.minWindow, band.maxWindow, x.length).value;
    var windowSizes := Range(s.minWindow, maxWindow);
    assert windowSizes[0] == s.minWindow;
    MembersRows(s, xx, y, windowSizes, band.ensembleSize, rng, sfa);
    var bs := AllWords(FitMembers(s, xx, y, windowSizes, band.ensembleSize, rng, sfa).value);
    assert band.ensembleSize * |s.useFirstDifferences| > 0;
    assert SameRows(bs);
  }

  /** With no first-difference option every member yields no block, and the
      merge has nothing to read. */
  lemma NoOptionsFails<Tr>(s: Settings, x: Panel, y: seq<Label>, rng: Seed -> Draws, sfa: Sfa<Tr>)
    requires |s.useFirstDifferences| == 0 && |s.wordLengths| > 0 && |s.normOptions| > 0
    requires x.channels == 1
    requires BoundWindow(s.minWindow, SelectBand(|x.data|, x.length).maxWindow, x.length).Success?
    ensures Fit(s, x, y, rng, sfa) == Failure(EmptyMerge)
  {
    var band := SelectBand(|x.data|, x.length);
    var maxWindow := BoundWindow(s.minWindow, band.maxWindow, x.length).value;
    var windowSizes := Range(s.minWindow, maxWindow);
    assert windowSizes[0] == s.minWindow;
    var members := FitMembers(s, Squeeze(x).value, y, windowSizes, band.ensembleSize, rng, sfa);
    assert members.Success?;
    var wss := seq(|members.value|, j requires 0 <= j < |members.value| => members.value[j].words);
    FlattenLength(wss, 0);
  }

  /** `_transform_words`: every stored transformer replayed on the new series,
      in stored order. It succeeds exactly when there is a transformer and all
      replays have the same row count, and is then as wide as all replays together. */
  function TransformWords<Tr>(m: Model<Tr>, x: Panel, sfa: Sfa<Tr>): (r: Result<Matrix>)
    ensures x.channels != 1 ==> r == Failure(NotUnivariate)
    ensures x.channels == 1 ==>
      var bs := Replays(sfa, m.transformers, Squeeze(x).value);
      && (r.Success? <==> |m.transformers| > 0 && SameRows(bs))
      && (r.Failure? ==> r.error == (if |m.transformers| == 0 then EmptyMerge else RowMismatch))
      && (r.Success? ==> |r.value.rows| == |bs[0].rows| && r.value.cols == TotalCols(bs))
  {
    if x.channels != 1 then Failure(NotUnivariate)
    else Merge(Replays(sfa, m.transformers, Squeeze(x).value))
  }

  /** The blocks replayed at inference, one per stored transformer. */
  function Replays<Tr>(sfa: Sfa<Tr>, ts: seq<Fitted<Tr>>, xx: Matrix): (bs: seq<Matrix>)
    ensures |bs| == |ts|
    ensures forall j | 0 <= j < |ts| :: bs[j] == Replay(sfa, ts[j], xx)
  {
    seq(|ts|, j requires 0 <= j < |ts| => Replay(sfa, ts[j], xx))
  }

  /** When every transformer replays at its fit-time width, inference yields
      exactly `total_features_count` columns, one row per new instance. */
  lemma SchemaStable<Tr>(s: Settings, x: Panel, y: seq<Label>, rng: Seed -> Draws, sfa: Sfa<Tr>, m: Model<Tr>, x2: Panel)
    requires Fit(s, x, y, rng, sfa) == Success(m)
    requires x2.channels == 1
    requires forall j | 0 <= j < |m.transformers| :: KeepsShape(sfa, m.transformers[j], Squeeze(x2).value)
    ensures TransformWords(m, x2, sfa).Success?
    ensures TransformWords(m, x2, sfa).value.cols == m.totalFeatures
    ensures |TransformWords(m, x2, sfa).value.rows| == |x2.data|
  {
    FitSteps(s, x, y, rng, sfa, m);
    FitCounts(s, x, y, rng, sfa, m);
    var xx := Squeeze(x2).value;
    var bs := Replays(sfa, m.transformers, xx);
    assert |bs| > 0 by {
      assert m.ensembleSize * |s.useFirstDifferences| > 0;
    }
    assert SameRows(bs);
    TotalColsMatchesWidths(bs, m.transformers);
  }

  /** Block `j` of the inference matrix is transformer `j`'s replay, column
      for column, starting at the summed widths of the replays before it. */
  lemma TransformProvenance<Tr>(m: Model<Tr>, x: Panel, sfa: Sfa<Tr>, j: nat, i: nat, c: nat)
    requires TransformWords(m, x, sfa).Success?
    requires j < |m.transformers|
    requires i < |Replay(sfa, m.transformers[j], Squeeze(x).value).rows|
    requires c < Replay(sfa, m.transformers[j], Squeeze(x).value).cols
    ensures var bs := Replays(sfa, m.transformers, Squeeze(x).value);
      TransformWords(m, x, sfa).value.rows[i][Offset(bs, j) + c]
      == Replay(sfa, m.transformers[j], Squeeze(x).value).rows[i][c]
  {
  }

  /** When every replay keeps its fit-time shape, replay `j` fills the same
      columns of the inference matrix that its fit-time block fills in the
      training matrix: from `SumWidths(transformers[..j])` on. */
  lemma TransformColumns<Tr>(m: Model<Tr>, x: Panel, sfa: Sfa<Tr>, j: nat, row: nat, c: nat)
    requires x.channels == 1
    requires forall q | 0 <= q < |m.transformers| :: KeepsShape(sfa, m.transformers[q], Squeeze(x).value)
    requires TransformWords(m, x, sfa).Success?
    requires j < |m.transformers| && row < |x.data| && c < m.transformers[j].width
    ensures |TransformWords(m, x, sfa).value.rows| == |x.data|
    ensures SumWidths(m.transformers[..j]) + c < TransformWords(m, x, sfa).value.cols
    ensures |Replay(sfa, m.transformers[j], Squeeze(x).value).rows| == |x.data|
    ensures |Replay(sfa, m.transformers[j], Squeeze(x).value).rows[row]| == m.transformers[j].width
    ensures TransformWords(m, x, sfa).value.rows[row][SumWidths(m.transformers[..j]) + c]
      == Replay(sfa, m.transformers[j], Squeeze(x).value).rows[row][c]
  {
    var bs := Replays(sfa, m.transformers, Squeeze(x).value);
    OffsetMatchesWidths(bs, m.transformers, j);
    TransformProvenance(m, x, sfa, j, row, c);
  }
}
